=== FILE: README.md ===
# Driver and KYC administration: a Dafny model

This project models the pure logic of a ride-hailing operator's admin
dashboard. A React front end and a small download route sit on top of a
Firestore `users` collection. Four pieces are modelled:

- **The KYC status engine of the drivers page.**
  - The display status derived from `kyc_approved` (true, false, null or
    absent), the free-text `kycStatus` and the number of KYC documents.
  - The completeness check that gates the Approve action.
  - The approve, reject and reject-with-resubmission transitions, with
    their document deletion and local merge.
  - The "absent means active" reading of `vehicleActive` and `is_active`
    and the toggle buttons.
  - The `DRIVER001…` display codes, the document-name formatting, the
    conjunctive table filter and the sort.
- **The pagination hook and the pagination component.**
  - The page count, the page contents and the navigation operations.
  - The page-size change, the clamping and reset effects, and the summary
    line.
  - The window of page numbers with ellipses, and the click guards.
- **The dashboard aggregates.**
  - A second status derivation that has no zero-document guard.
  - The KYC, vehicle and driver tallies, the role split, and the user and
    booking searches.
  - The booking counts and the revenue sum.
- **The download route.** The choice of file extension and the response
  headers. The upstream `fetch` is an oracle.

How the JavaScript is rendered in Dafny:

- A field that may be a boolean, `null` or missing is a `Tri`.
- An optional string is an `Option<string>`. `Present` reads the empty
  string as falsy.
- String `<` is `LexLess`, the code-unit order.
- `toLowerCase` covers ASCII only.
- Firestore calls are a `Store` record saying which calls succeed.
- Timestamps are a `now` parameter.
- React effects are the state transitions they cause once one commit's
  batched updates have been applied.

Files (all modules are top level):

- `wrappers.dfy`, `text.dfy`, `seqs.dfy`, `sorting.dfy`: options, string
  semantics, filtering and counting, and the stable comparator sort.
- `users.dfy`: the user record.
- `kyc.dfy`, `kyc_actions.dfy`: the status engine and the admin actions.
- `driver_codes.dfy`, `drivers_table.dfy`: driver codes, document names
  and the drivers table.
- `pager.dfy`, `page_numbers.dfy`: the pagination hook and component.
- `dashboard.dfy`: the dashboard page.
- `download.dfy`: the download route.

Approval never writes `kycRejectionReason`, so a reason left by an
earlier rejection survives on the record; see
`KycActions.ApproveShowsVerified`.

The drivers table is never edited directly. An effect re-runs the
filters and the sort whenever the drivers, the filters or the sort
change (app/dashboard/drivers/page.jsx:99-101). The actions therefore
update only the fetched drivers, and the model derives the rows shown
afterwards from them (`KycActions.Table`).

## Model

| member | source | states |
|---|---|---|
| Kyc.DisplayStatus | app/dashboard/drivers/page.jsx:422-437 | With no documents the status is only "rejected" or "not-submitted", whatever `kyc_approved` says. Every result is one of the five canonical statuses or the present `kycStatus` text passed through. |
| Kyc.DisplayStatusByOutcome | app/dashboard/drivers/page.jsx:422-437 | For each of the five statuses, the exact inputs that produce it (iff). A non-canonical text is shown exactly when there are documents, the flag is not a boolean and the text is present and non-canonical. |
| Kyc.BadgeFallbackHarmless | app/dashboard/drivers/page.jsx:422-437 | Passing `kycStatus \|\| 'not-submitted'` instead of the raw field never changes the derived status. |
| Kyc.SubmissionComplete | app/dashboard/drivers/page.jsx:440-444 | Complete iff the document map is non-empty and every document has a non-empty url. |
| Kyc.ApproveOfferedHasDocuments | app/dashboard/drivers/page.jsx:942-975 | A driver offered Approve has at least one document and a flag that is not already true. |
| Kyc.ApproveOffered | app/dashboard/drivers/page.jsx:942-958 | Approve is offered iff the submission is complete, `kyc_approved` is not `true`, and a missing flag does not come with the text "verified". |
| Kyc.RejectOffered | app/dashboard/drivers/page.jsx:942-975 | Reject is offered iff the shown status is pending, submitted, not-submitted or passed-through text. Without documents, that is iff neither the text "rejected" nor `kyc_approved === false` is stored. |
| Kyc.VehicleStatusLabel | app/dashboard/drivers/page.jsx:210-217 | The vehicle label is "active" iff `vehicleActive` is not literally false, and "inactive" iff it is. |
| Kyc.VehicleFilterMatches | app/dashboard/drivers/page.jsx:209-216 | Only drivers with a vehicle match. "active" keeps those whose `vehicleActive` is not `false`, "inactive" those whose flag is `false`, and any other value keeps nobody. |
| Kyc.StatusFilterMatches | app/dashboard/drivers/page.jsx:218-224 | "active" keeps drivers whose `is_active` is not `false`, "inactive" those whose flag is `false`, and any other value keeps everyone. |
| KycActions.KycUpdate | app/dashboard/drivers/page.jsx:469-486 | Approve writes true/"verified" with a verification time and no rejection time. Reject writes false/"rejected". Reject with resubmission writes null/"not-submitted". A reason is stored iff rejecting with a non-empty reason. |
| KycActions.MergeKyc | app/dashboard/drivers/page.jsx:491-515 | The merged record carries the written fields. A missing reason keeps the old one. Documents are emptied only when they were deleted. Every other field is unchanged. |
| KycActions.UpdateWhere | app/dashboard/drivers/page.jsx:491-515 | Only records with the given id are updated; every other record is left identical and the length is kept. |
| KycActions.UpdateKycStatus | app/dashboard/drivers/page.jsx:447-515 | Documents are deleted only for reject-with-resubmission, and only if the store succeeds. An update is written iff the store accepts it and any needed deletion succeeded. A failed action leaves the view unchanged. Filters and sort are kept. On success each driver with the id gets the merged KYC patch, and every other driver stays identical. |
| KycActions.SetDriverStatus | app/dashboard/drivers/page.jsx:625-640 | Writes `is_active` and a timestamp iff the store accepts it; otherwise the view is unchanged. Never deletes documents. On success each driver with the id gets `is_active` set to the new value and nothing else, every other driver stays identical, and the length, filters and sort are kept. |
| KycActions.UpdateVehicleStatus | app/dashboard/drivers/page.jsx:668-686 | Writes `vehicleActive` and a timestamp iff the store accepts it; otherwise the view is unchanged. Never deletes documents. On success each driver with the id gets the new `vehicleActive` and `updatedAt`, every other driver stays identical, and the length, filters and sort are kept. |
| KycActions.Table | app/dashboard/drivers/page.jsx:99-101 | After any change the table shows exactly the fetched drivers that pass the current filters. |
| KycActions.UpdatedMember | app/dashboard/drivers/page.jsx:491-501 | Every record of the updated list is the updated or the untouched record at the same place in the old list. |
| KycActions.OtherRowsUnchanged | app/dashboard/drivers/page.jsx:491-502 | An update that keeps ids leaves the driver codes unchanged, and any other driver is shown after the recomputation exactly when it was shown before. (The table is recomputed by the effect at lines 99-101.) |
| KycActions.ApproveShowsVerified | app/dashboard/drivers/page.jsx:469-493 | After approving a complete submission the badge shows "verified", neither action is offered any more, and an earlier rejection reason survives. |
| KycActions.RejectShowsRejected | app/dashboard/drivers/page.jsx:469-497 | Rejecting without resubmission shows "rejected" for every document count, keeps the documents, and keeps the old reason when the new one is empty. |
| KycActions.ResubmissionShowsNotSubmitted | app/dashboard/drivers/page.jsx:481-497 | Rejecting with resubmission empties the documents, shows "not-submitted", and Approve is no longer offered. |
| KycActions.ApproveActionEffect | app/dashboard/drivers/page.jsx:467-515 | After a successful approve, each driver with the id and a complete submission shows verified. Once the table is recomputed, the other drivers are shown exactly as before. The approved driver stays in the table only when the KYC filter is unset or "verified". (The table is recomputed by the effect at lines 99-101.) |
| KycActions.ResubmissionFailureModes | app/dashboard/drivers/page.jsx:447-488 | If the deletion fails, nothing is written and the view is unchanged. If the deletion succeeds but the update fails, only the deletion happened. |
| DriverCodes.NonEmptyIds | app/dashboard/drivers/page.jsx:55 | The ids kept are exactly the non-empty ids of some driver. |
| DriverCodes.SortUnique | app/dashboard/drivers/page.jsx:55-56 | The result is strictly increasing, so it has no duplicates, and holds exactly the input's elements. |
| DriverCodes.DriverCode | app/dashboard/drivers/page.jsx:58-60 | A code is "DRIVER" followed by exactly max(3, number of decimal digits of the index) characters, so indexes below 1000 give nine-character codes. |
| DriverCodes.DriverCodeNumber | app/dashboard/drivers/page.jsx:58-60 | The digits after "DRIVER" are all decimal and read back as the index. |
| DriverCodes.DriverCodeInjective | app/dashboard/drivers/page.jsx:58-60 | Different indexes give different codes. |
| DriverCodes.DriverCodeMap | app/dashboard/drivers/page.jsx:54-62 | The map's keys are exactly the distinct non-empty ids. |
| DriverCodes.DriverCodeIsRank | app/dashboard/drivers/page.jsx:54-62 | The number in a driver's code is one plus the count of ids that sort before it. |
| DriverCodes.DriverCodesDistinct | app/dashboard/drivers/page.jsx:54-62 | An id that sorts earlier gets a smaller code number, so different ids get different codes. |
| DriverCodes.FirstIndexOf | app/dashboard/drivers/page.jsx:902 | The result is the first index at which the pattern occurs, or none when it occurs nowhere. |
| DriverCodes.CapitalizeWords | app/dashboard/drivers/page.jsx:901 | Exactly the characters that start a word are upper-cased; the length is kept. |
| DriverCodes.FormatDocumentNameOnlyRecases | app/dashboard/drivers/page.jsx:898-903 | The formatted name has the key's length and no underscore, and differs from the key with underscores replaced only in letter case. |
| DriverCodes.FormatDocumentNameExample | app/dashboard/drivers/page.jsx:898-903 | The identity card key `id_front` is shown as "ID Front". |
| DriverCodes.FormatDocumentName | app/dashboard/drivers/page.jsx:898-903 | The name has the key's length and no underscore, and lower-cased it equals the key with spaces for underscores. |
| DriversTable.SetFilter | app/dashboard/drivers/page.jsx:336-341 | Sets one column's filter and leaves every other column's value unchanged. |
| DriversTable.SortClicksAlternate | app/dashboard/drivers/page.jsx:344-349 | Clicking the same column again always reverses the direction, and three clicks equal one. |
| DriversTable.NewColumnSortsAscending | app/dashboard/drivers/page.jsx:344-349 | A click on a column other than the sorted one sorts it ascending. |
| DriversTable.HandleSort | app/dashboard/drivers/page.jsx:344-349 | The clicked column becomes the sort key. The direction is descending iff that column was already sorted ascending. |
| DriversTable.Matches | app/dashboard/drivers/page.jsx:185-232 | With no filter set every driver matches. A set KYC filter admits only drivers with that display status, and a set vehicle-status filter only drivers with a vehicle. |
| DriversTable.Step | app/dashboard/drivers/page.jsx:186-233 | An empty filter keeps everything; a set filter keeps exactly the matching rows, in order. |
| DriversTable.ApplyTableFilters | app/dashboard/drivers/page.jsx:182-260 | The rows shown are exactly the drivers passing every set filter, each as often as in the input. Unsorted, they keep the input order. Sorted, no row is preceded by a row whose key it strictly precedes. |
| DriversTable.ShownIffMatches | app/dashboard/drivers/page.jsx:182-233 | A driver is shown iff it is in the list and passes every set filter. |
| Sorting.SortBy | app/dashboard/drivers/page.jsx:236-257 | The comparator sort returns an ordered permutation of its input. |
| Sorting.SortIdempotent | app/dashboard/drivers/page.jsx:236-257 | Sorting an already sorted table changes nothing. |
| Pager.TotalPages | app/lib/hooks/usePagination.js:25-26 | At least one page; enough pages to hold every item; no spare page unless the list is empty. |
| Pager.TotalPagesIsLeast | app/lib/hooks/usePagination.js:25-26 | No smaller positive page count holds every item. |
| Pager.PageItemsInRange | app/lib/hooks/usePagination.js:45-49 | On a page in range, the page is the slice from `(page-1)*ipp` to `min(page*ipp, n)`. It holds at most `ipp` items, is non-empty for a non-empty list, and is full before the last page. |
| Pager.PageItems | app/lib/hooks/usePagination.js:45-49 | A page never holds more than the page size, and a page starting past the last item is empty. |
| Pager.PagesPartitionData | app/lib/hooks/usePagination.js:45-49 | Concatenating pages 1 to `totalPages` gives back the list. |
| Pager.GoToPage | app/lib/hooks/usePagination.js:52-55 | Always lands in `[1, totalPages]`. A page in range is taken as is; one below goes to 1 and one above goes to the last. |
| Pager.NextPage | app/lib/hooks/usePagination.js:57-61 | Moves forward by one unless on the last page; there it changes nothing. |
| Pager.PreviousPage | app/lib/hooks/usePagination.js:63-67 | Moves back by one unless on the first page; there it changes nothing. |
| Pager.NavigationInverse | app/lib/hooks/usePagination.js:57-67 | Next and previous keep a valid page valid and undo each other away from the ends. |
| Pager.FirstLastAreGoTo | app/lib/hooks/usePagination.js:69-75 | First and last are going to page 1 and to `totalPages`. |
| Pager.ChangeItemsPerPage | app/lib/hooks/usePagination.js:77-85 | The size becomes at least 1, and the new page's range contains the previously first item. |
| Pager.ChangeItemsPerPageKeepsFirstItem | app/lib/hooks/usePagination.js:77-85 | For a valid page of a non-empty list, the new page is in range, and the previously first item is on it. |
| Pager.Clamp | app/lib/hooks/usePagination.js:36-42 | The corrected page is in range, and a page already in range is untouched. |
| Pager.ClampIdempotent | app/lib/hooks/usePagination.js:36-55 | Clamping twice equals clamping once; clamping is going to the current page; going to a page is idempotent. |
| Pager.Settle | app/lib/hooks/usePagination.js:29-42 | After a length change, reset returns to page 1, and otherwise the page is clamped into range. A change that keeps the length leaves the page alone. |
| Pager.InfoBounds | app/lib/hooks/usePagination.js:94-110 | For a non-empty list, the start item is `(page-1)*ipp+1` and the end item is `min(page*ipp, n)`, with `1 <= start <= end <= n`. |
| Pager.InfoFlags | app/lib/hooks/usePagination.js:94-110 | An empty list shows 0 to 0 and is both the first and the last page. There is a next page iff this is not the last page, and a previous page iff this is not the first. |
| Pager.InfoDescribesPage | app/lib/hooks/usePagination.js:94-110 | The items shown are exactly those at 1-based positions start to end. |
| Pager.PaginationInfo | app/lib/hooks/usePagination.js:94-110 | Reports the item count, page, page size and `TotalPages`. The end item never passes the count, the last page has no next page, and a page from 1 up is first iff it has no previous page. A stale page past the last one of a non-empty list has its start after its end. |
| Pager.IsFilteredIffDropped | app/lib/hooks/usePagination.js:164-179 | The list counts as filtered iff the predicate drops some item. |
| PageNumbers.ItemRangeMatchesHook | components/ui/pagination.jsx:22-23 | The component's start and end items equal the hook's summary. |
| PageNumbers.ItemRange | components/ui/pagination.jsx:22-23 | The end never passes the item count; an empty list starts at 0, any other list at 1 or later. |
| PageNumbers.Window | components/ui/pagination.jsx:28-40 | For any current page from 1 up, the window lies within `[1, totalPages]`. It holds at most `maxPageNumbers` pages (rounded up to odd) and at least `min(totalPages, maxPageNumbers)`. It contains the current page when that page is not past the last one. For a stale page past the last one, it ends at the last page. |
| PageNumbers.OddWindowLength | components/ui/pagination.jsx:28-40 | For an odd maximum, the window has exactly `min(totalPages, maxPageNumbers)` pages, also for a stale current page. |
| PageNumbers.PageNumbersIncreasing | components/ui/pagination.jsx:26-64 | For any current page from 1 up, the entries appear in strictly increasing page order, so the numbers are strictly increasing and no entry repeats. |
| PageNumbers.PageNumbersContents | components/ui/pagination.jsx:26-64 | Lists page k iff k is 1, the last page or inside the window. Page 1 and the last page are always listed, and the current page exactly when it is not past the last one. Each ellipsis appears iff it stands for at least one omitted page, and every omitted page is covered by one. |
| PageNumbers.PageNumbers | components/ui/pagination.jsx:26-64 | The list starts with page 1 and ends with the last page, also when the current page is stale. |
| PageNumbers.StalePageRender | components/ui/pagination.jsx:22-64 | With 25 items at 10 per page and a stale page 4, the buttons are pages 1 to 3 without the current page, and the range reads 31 to 25. |
| PageNumbers.ControlsAgreeWithHook | components/ui/pagination.jsx:68-84 | Enabled Previous and Next request exactly the hook's previous and next page when they move. A click requests a listed number only if it differs from the current page, and an ellipsis requests nothing. |
| PageNumbers.HandlePrevious | components/ui/pagination.jsx:68-72 | Requests nothing iff on page 1 or disabled; otherwise requests an earlier page, at least 1. |
| PageNumbers.HandleNext | components/ui/pagination.jsx:74-78 | Requests nothing iff on the last page or past it, or disabled; otherwise a later page, at most the last. |
| PageNumbers.HandlePageClick | components/ui/pagination.jsx:80-84 | Requests a page iff a number other than the current page is clicked on an enabled control, and then exactly that number. |
| PageNumbers.VisibilityByLength | components/ui/pagination.jsx:92-94 | The controls are shown iff there are more items than fit on one page. The component renders nothing iff everything fits and no size selector is asked for. |
| Dashboard.DashboardStatus | app/dashboard/page.jsx:143-154 | Every result is canonical or the present status text. |
| Dashboard.DerivationsAgree | app/dashboard/page.jsx:143-154 | With documents the two pages derive the same status. Without documents, the exact inputs on which they still agree. |
| Dashboard.DashboardStatusWithoutDocuments | app/dashboard/page.jsx:143-154 | With no documents, the dashboard can say "verified" or "pending" where the drivers page says "not-submitted" or "rejected". |
| Dashboard.BucketOf | app/dashboard/page.jsx:555-570 | A status falls in the not-submitted bucket iff it is none of verified, pending, rejected or submitted. |
| Dashboard.TallyKyc | app/dashboard/page.jsx:547-571 | Each bucket's counter equals the number of drivers in that bucket, and the five counters sum to the number of drivers. |
| Dashboard.ActiveDriversMatchTable | app/dashboard/page.jsx:535-537 | The active-drivers count equals the number of rows the drivers table shows under the "active" status filter. Active and inactive sum to the total. |
| Dashboard.VehicleTalliesPartition | app/dashboard/page.jsx:575-583 | The vehicle-active, vehicle-inactive and without-vehicle counts sum to the number of drivers. |
| Dashboard.DriversAndClientsDisjoint | app/dashboard/page.jsx:460-463 | No user is both driver and client, so the two counts never exceed the number of users. |
| Dashboard.FilterUsers | app/dashboard/page.jsx:158-182 | Order-preserving subsequence; a user is kept iff the search matches and the role filter admits them. |
| Dashboard.UserSearchMatches | app/dashboard/page.jsx:161-168 | The id is always searched, and a user without email, name or display name matches iff the id contains the term, ignoring case. |
| Dashboard.RiderFilterMatchesClientCount | app/dashboard/page.jsx:158-182 | With no search, the "rider" filter keeps exactly as many users as the client count. |
| Dashboard.BookingCountsBounded | app/dashboard/page.jsx:216-238 | The active, completed, cancelled and pending booking counts sum to at most the number of bookings. |
| Dashboard.NumOr | app/dashboard/page.jsx:242-247 | `x \|\| fallback` on numbers: zero and missing both fall back. |
| Dashboard.TotalRevenueAdditive | app/dashboard/page.jsx:242-247 | The revenue of two booking lists together is the sum of their revenues. |
| Dashboard.TotalRevenueOfOne | app/dashboard/page.jsx:242-247 | A single booking contributes its fare only if completed, and a zero fare falls back to the amount. |
| Dashboard.TotalRevenue | app/dashboard/page.jsx:242-247 | With no completed booking the revenue is 0. |
| Dashboard.FilterBookings | app/dashboard/page.jsx:404-424 | Order-preserving subsequence. A booking is kept iff the search matches, and the status is "all" or equal. |
| Download.Extension | app/api/download-image/route.js:28-33 | The extension is always pdf, png or jpg. |
| Download.ExtensionByOutcome | app/api/download-image/route.js:28-33 | pdf and png exactly under the precedence order; a url marker makes the content type irrelevant. |
| Download.DispositionParts | app/api/download-image/route.js:40 | The header is the fixed prefix, the filename, a dot, the extension and a closing quote. |
| Download.DispositionInjective | app/api/download-image/route.js:40 | Different filename or extension pairs give different headers. |
| Download.DispositionValidIffFilename | app/api/download-image/route.js:36-44 | The disposition header is a valid header value (bytes only, no NUL, CR or LF) exactly when the filename is. |
| Download.Get | app/api/download-image/route.js:4-52 | A missing url gives 400 "Missing image URL". A thrown fetch or a not-ok response gives 500 "Failed to download file" with the message as details. So does a filename that cannot stand in a header value, with the runtime's message. An attachment is returned iff the url is present, the response is ok and the filename is a valid header value. |
| Download.SuccessfulDownload | app/api/download-image/route.js:22-44 | On success with a filename a header value can carry: an attachment with status 200, the upstream content type or the octet-stream default, the disposition header, a length that reads back as the byte count, and "no-cache". |
| Download.InvalidFilenameFails | app/api/download-image/route.js:36-50 | A filename with a character above U+00FF or a line feed turns a good upstream answer into the 500 reply carrying the runtime's message. |
| Download.MissingUrlFetchesNothing | app/api/download-image/route.js:10-12 | Without a url the reply does not depend on the upstream at all. |
| Download.EmptyFilenameIsDefault | app/api/download-image/route.js:8 | An absent or empty filename behaves as "document". |
| Text.Includes | app/dashboard/drivers/page.jsx:186-201 | `includes` holds iff the pattern occurs at some index. |
| Text.PaddedDecimalRoundTrip | app/dashboard/drivers/page.jsx:59 | A zero-padded decimal rendering is all digits and reads back as the number. |
| KycActions.VehicleToggleAsWrittenMisfires | app/dashboard/drivers/page.jsx:986-995 | A vehicle-toggle click leaves the shown state unchanged iff `vehicleActive` is missing or null. |
| KycActions.VehicleToggleAsWritten | app/dashboard/drivers/page.jsx:986 | The click writes `true` iff `vehicleActive` is not literally `true`, so on a vehicle shown active it writes `false` only when the flag was `true`. |
| KycActions.VehicleToggleFlips | app/dashboard/drivers/page.jsx:986-995 | With the corrected value, a successful click flips the shown vehicle state of the record and of every shown row with that id. Under a vehicle-status filter the clicked row leaves the recomputed table. Other drivers are shown exactly as before. (The table is recomputed by the effect at lines 99-101.) |
| KycActions.DriverBadgeAsWrittenDisagrees | app/dashboard/drivers/page.jsx:1013-1022 | The "active" filter keeps a driver the badge shows as inactive iff `is_active` is missing or null; for a boolean flag they agree. |
| KycActions.DriverShownActiveAsWritten | app/dashboard/drivers/page.jsx:1013-1022 | The truthy test shows a driver active only when `is_active` is `true`, and every such driver also passes the `!== false` filter. |
| KycActions.DriverBadgeAgreesWithFilter | app/dashboard/drivers/page.jsx:219-225 | With the corrected badge, the status filters keep exactly the drivers the badge shows active or inactive. A successful toggle flips the badge of the record and of every shown row with that id. Under a status filter the row leaves the recomputed table. Other drivers are shown exactly as before. (The table is recomputed by the effect at lines 99-101.) |
| KycActions.StatusFilterFollowsBadge | app/dashboard/drivers/page.jsx:219-225 | With the corrected badge, "active" keeps exactly the drivers the badge shows active and "inactive" exactly the others. |
| KycActions.ToggledDriverRowsFlip | app/dashboard/drivers/page.jsx:625-640 | After a successful corrected toggle, every shown row with the driver's id carries the opposite badge. (The table is recomputed by the effect at lines 99-101.) |
| KycActions.ToggledDriverLeavesTable | app/dashboard/drivers/page.jsx:219-225 | Under the "active" or "inactive" filter, a driver shown before a successful corrected toggle is no longer shown after it. (The table is recomputed by the effect at lines 99-101.) |
| Pager.SettleAsWrittenMissesReset | app/lib/hooks/usePagination.js:29-42 | As written, page 4 of 50 items at 10 per page, filtered down to 25 items with reset enabled, shows page 3. |
| Pager.SettleAsWritten | app/lib/hooks/usePagination.js:29-42 | As written, settling keeps the page size and changes nothing when the length is unchanged. |
| Pager.SettleDiffersOnlyPastEnd | app/lib/hooks/usePagination.js:29-42 | The written and intended effects differ iff the length changes, reset is enabled and the old page lies past a new last page other than 1. |
| DriverCodes.FormatDocumentNameSplitsWord | app/dashboard/drivers/page.jsx:898-903 | As written, a key starting with "id" followed by a letter is shown starting with "ID" glued to the rest of the word. |
| DriverCodes.FormatDocumentNameFixedKeepsWords | app/dashboard/drivers/page.jsx:898-903 | The corrected name keeps such a word as "Id…". |
| DriverCodes.IdWordUpperCased | app/dashboard/drivers/page.jsx:898-903 | A key starting with the word "id" is shown starting with "ID " both as written and corrected. |
| DriverCodes.ReplaceWholeIdOnlyRecases | app/dashboard/drivers/page.jsx:898-903 | The corrected replacement changes letter case only, and only inside a whole word "Id". |
| Dashboard.TallyAsWrittenDisagrees | app/dashboard/page.jsx:539-571 | A driver with a true flag, no documents and no rejected status is counted verified on the dashboard, but the drivers table's verified filter does not show them. |
| Dashboard.TallyMatchesTableFilter | app/dashboard/page.jsx:539-571 | With the drivers-page derivation, each named bucket's count equals the number of rows the drivers table shows under that KYC filter. |

## Left out

- Firestore I/O is not modelled. That covers `getDocs`, `updateDoc`, `deleteDoc` and the assembly of `kycDocuments` and `vehicle` from sub-collections. A `Store` record only says whether the deletion and the update succeed. The deletion is all-or-nothing; a partial deletion is not modelled.
- Toasts, download notifications, anchor clicks, modal flags and rendering are left out. Only the values the badges and buttons show are modelled.
- Date-driven logic is left out: date-range filters, date formatting, `createdAt` ordering and the chart series. It depends on `Date` and the locale.
- Floating-point growth percentages and document zoom are left out.
- Revenue is summed over integers, not JavaScript numbers. Fractional fares and rounding are not modelled.
- Authentication, sessions and navigation are left out.
- The upstream `fetch` and `arrayBuffer` of the download route are an oracle returning the outcome, the status text, the content-type header and the byte length.
- The route's `new URL(request.url)` is assumed not to throw. The query parameters arrive already parsed as optional strings.
- Case folding covers ASCII only. String order is code-unit order on `char`; surrogate pairs are not treated specially.
- The hook's `reset()` helper is not modelled.
- KycActions.UpdateKycStatus, KycActions.SetDriverStatus and KycActions.UpdateVehicleStatus are modelled as completing one at a time. No button is disabled while a write is pending, and each handler maps the drivers list it captured when clicked (app/dashboard/drivers/page.jsx:491-502, 631-634, 677-680). When two actions overlap, the later completion can undo the earlier one's local update while the store keeps both. That interleaving is not modelled.
- PageNumbers.PageNumbersContents: excludes a `maxPageNumbers` of 0 together with a page past the last one, where the last page is not listed. The only caller passes 5 and the default is 5.
- Each action also maps the shown list by hand (app/dashboard/drivers/page.jsx:504-515, 636-640, 682-686). That list is shown for at most one render, until the effect at lines 99-101 recomputes the table from the drivers. The model keeps only the recomputed table.
- The message of the `TypeError` that the response constructor throws for an invalid header value is a parameter of `Download.Get`, as is the upstream answer. The upstream content type is taken to be a valid header value, since it was read from a header.
- Pager.ValidSize: a page size below 1 is excluded. The hook never produces one: `changeItemsPerPage` clamps to 1, and every caller starts from a positive size.
- Sorting.SortBy: the comparator sort is modelled as an insertion sort. Its stability is the one ES2019 guarantees, but no stability lemma is stated.
- DriversTable.ClearedTableShowsAll: states that clearing every filter without a sort shows the list unchanged. The verifier needs no proof steps for it.
- PageNumbers.ControlsAgreeWithHook: states the Previous and Next requests only for enabled controls. When disabled, both request nothing, as their definitions show.
- Pager.ChangeItemsPerPageKeepsFirstItem: keeps the page in range only for a page that was in range before the change.
- The dashboard's other derivation is modelled on `kycDocumentCount` given as a number. How that count is computed from the sub-collection is not part of this model.
- The sort keys other than name and code (`a[sortConfig.key]` for any other column) are left out, since the table only offers name and code as sortable columns.

## Findings

| source | as written | input that shows it | evidently intended | confidence | as-written member | corrected member |
|---|---|---|---|---|---|---|
| app/dashboard/drivers/page.jsx:986-995 | The vehicle button writes `!(vehicleActive === true)`, while its label and the badge read a missing field as active | A driver with a vehicle and no `vehicleActive` field: the button says "Deactivate Vehicle" and writes `true`, so nothing changes | Write the opposite of what is shown: `vehicleActive === false` | high, not executed | KycActions.VehicleToggleAsWrittenMisfires | KycActions.VehicleToggleFlips |
| app/lib/hooks/usePagination.js:29-42 | The reset effect and the clamping effect both request a page in the same commit, and the clamp's request wins | 50 items at 10 per page on page 4, filtered down to 25 items with reset enabled: page 3 is shown | A length change with reset enabled goes to page 1 | medium, not executed | Pager.SettleAsWrittenMissesReset | Pager.Settle |
| app/dashboard/drivers/page.jsx:898-903 | `.replace('Id', 'ID')` replaces the first "Id" anywhere, also inside a word | The key `identity_card` is shown as "IDentity Card" | Upper-case only a whole word "Id" | medium, not executed | DriverCodes.FormatDocumentNameSplitsWord | DriverCodes.FormatDocumentNameFixedKeepsWords |
| app/dashboard/drivers/page.jsx:1013-1022 | The status badge and the driver toggle test `is_active` for truthiness, while the filters and the dashboard count test `!== false` | A driver without `is_active`: the "active" filter keeps them but the badge says inactive, and the button offers "Activate" | Read a missing flag as active everywhere | high, not executed | KycActions.DriverBadgeAsWrittenDisagrees | KycActions.DriverBadgeAgreesWithFilter |
| app/dashboard/page.jsx:539-571 | The KYC tally, commented as using the drivers table's logic, uses the dashboard's own derivation, which has no zero-document guard | A driver with `kyc_approved: true`, no documents and no `kycStatus`: counted as verified, shown as not-submitted in the table | Count with the drivers page's derivation | medium, not executed | Dashboard.TallyAsWrittenDisagrees | Dashboard.TallyMatchesTableFilter |

=== FILE: dashboard.dfy ===
/** The overview page: its own KYC status derivation, the driver and
    client split, the user and booking searches, and the tallies shown on
    the statistic cards (drivers by KYC status, by activity and by vehicle,
    bookings by status, revenue). */
module Dashboard {
  import opened Wrappers
  import opened Text
  import opened Seqs
  import opened Users
  import opened Kyc
  import opened DriverCodes
  import opened DriversTable

  // ---------------------------------------------------------------------
  // The overview's KYC derivation
  // ---------------------------------------------------------------------

  /** `getKYCDisplayStatus` of the overview page. Unlike the drivers page
      it looks at the boolean flag before the document count, so it has no
      guard for drivers without documents. */
  function DashboardStatus(approved: Tri, status: Option<string>, documentCount: nat): (r: string)
    ensures IsCanonical(r) || (Present(status) && r == status.value)
  {
    if approved.B? then
      if approved.value then Verified
      else if status == Some(Rejected) then Rejected
      else Pending
    else if documentCount > 0 && (!Present(status) || status == Some(NotSubmitted)) then Submitted
    else OrElse(status, NotSubmitted)
  }

  function DashboardStatusOf(u: User): string {
    DashboardStatus(u.kycApproved, u.kycStatus, DocumentCount(u))
  }

  /** With at least one document the two derivations agree. Without
      documents they agree exactly when the flag is `false` and the status
      text is "rejected", or the flag is not a boolean and the status text
      is missing, empty, "not-submitted" or "rejected". */
  lemma DerivationsAgree(a: Tri, st: Option<string>, n: nat)
    ensures n > 0 ==> DashboardStatus(a, st, n) == DisplayStatus(a, st, n)
    ensures n == 0 ==>
      (DashboardStatus(a, st, n) == DisplayStatus(a, st, n) <==>
         (a == B(false) && st == Some(Rejected))
         || (!a.B? && (!Present(st) || st == Some(NotSubmitted) || st == Some(Rejected))))
  {
  }

  /** A driver with no documents whose flag is `true` is counted as
      verified by the overview while the drivers table shows
      "not-submitted"; with the flag `false` and a status other than
      "rejected" the overview says "pending" and the table "rejected". */
  lemma DashboardStatusWithoutDocuments()
    ensures DashboardStatus(B(true), None, 0) == Verified
    ensures DisplayStatus(B(true), None, 0) == NotSubmitted
    ensures DashboardStatus(B(false), Some(Pending), 0) == Pending
    ensures DisplayStatus(B(false), Some(Pending), 0) == Rejected
  {
  }

  // ---------------------------------------------------------------------
  // KYC tally
  // ---------------------------------------------------------------------

  /** The five counters of the KYC card. */
  datatype KycBucket = VerifiedBucket | PendingBucket | RejectedBucket | SubmittedBucket | NotSubmittedBucket

  /** The `switch` of the tally: the four named statuses have their own
      counter, every other status falls to the default, "not-submitted". */
  function BucketOf(status: string): (b: KycBucket)
    ensures b == NotSubmittedBucket <==> status !in {Verified, Pending, Rejected, Submitted}
  {
    if status == Verified then VerifiedBucket
    else if status == Pending then PendingBucket
    else if status == Rejected then RejectedBucket
    else if status == Submitted then SubmittedBucket
    else NotSubmittedBucket
  }

  function InBucket(status: User -> string, b: KycBucket): User -> bool {
    u => BucketOf(status(u)) == b
  }

  datatype KycTally = KycTally(verified: nat, pending: nat, rejected: nat, submitted: nat, notSubmitted: nat) {
    function Get(b: KycBucket): nat {
      match b
      case VerifiedBucket => verified
      case PendingBucket => pending
      case RejectedBucket => rejected
      case SubmittedBucket => submitted
      case NotSubmittedBucket => notSubmitted
    }

    function Total(): nat {
      verified + pending + rejected + submitted + notSubmitted
    }
  }

  /** The `forEach` over the drivers that fills the KYC card, for a given
      status derivation. Every counter holds the number of drivers whose
      status falls in its bucket, and the counters add up to the number of
      drivers: each driver is counted once. */
  method TallyKyc(drivers: seq<User>, status: User -> string) returns (t: KycTally)
    ensures forall b :: t.Get(b) == Count(drivers, InBucket(status, b))
    ensures t.Total() == |drivers|
  {
    var v, p, r, sb, ns := 0, 0, 0, 0, 0;
    var i := 0;
    while i < |drivers|
      invariant 0 <= i <= |drivers|
      invariant v == Count(drivers[..i], InBucket(status, VerifiedBucket))
      invariant p == Count(drivers[..i], InBucket(status, PendingBucket))
      invariant r == Count(drivers[..i], InBucket(status, RejectedBucket))
      invariant sb == Count(drivers[..i], InBucket(status, SubmittedBucket))
      invariant ns == Count(drivers[..i], InBucket(status, NotSubmittedBucket))
      invariant v + p + r + sb + ns == i
    {
      var d := drivers[i];
      CountOne(drivers[..i], d, status);
      assert drivers[..i + 1] == drivers[..i] + [d];
      match BucketOf(status(d)) {
        case VerifiedBucket => v := v + 1;
        case PendingBucket => p := p + 1;
        case RejectedBucket => r := r + 1;
        case SubmittedBucket => sb := sb + 1;
        case NotSubmittedBucket => ns := ns + 1;
      }
      i := i + 1;
    }
    assert drivers[..i] == drivers;
    t := KycTally(v, p, r, sb, ns);
  }

  /** Appending one driver adds one to the count of its own bucket and
      nothing to the others. */
  lemma CountOne(prefix: seq<User>, d: User, status: User -> string)
    ensures forall b :: (Count(prefix + [d], InBucket(status, b)) ==
      Count(prefix, InBucket(status, b)) + if BucketOf(status(d)) == b then 1 else 0)
  {
    assert [d][1..] == [];
    forall b ensures Count(prefix + [d], InBucket(status, b)) ==
      Count(prefix, InBucket(status, b)) + if BucketOf(status(d)) == b then 1 else 0
    {
      CountAppend(prefix, [d], InBucket(status, b));
    }
  }

  /** The overview's tally as written: by the overview's own derivation. */
  method TallyKycAsWritten(drivers: seq<User>) returns (t: KycTally)
    ensures forall b :: t.Get(b) == Count(drivers, InBucket(DashboardStatusOf, b))
    ensures t.Total() == |drivers|
  {
    t := TallyKyc(drivers, DashboardStatusOf);
  }

  /** The overview's tally with the drivers page's derivation, as the
      comment above the tally says it should be. */
  method TallyKycLikeTable(drivers: seq<User>) returns (t: KycTally)
    ensures forall b :: t.Get(b) == Count(drivers, InBucket(StatusOf, b))
    ensures t.Total() == |drivers|
  {
    t := TallyKyc(drivers, StatusOf);
  }

  /** The status a bucket stands for on the drivers table's KYC filter. */
  function BucketName(b: KycBucket): string {
    match b
    case VerifiedBucket => Verified
    case PendingBucket => Pending
    case RejectedBucket => Rejected
    case SubmittedBucket => Submitted
    case NotSubmittedBucket => NotSubmitted
  }

  /** Counted with the drivers page's derivation, each named bucket holds
      as many drivers as the drivers table lists when its KYC filter is set
      to that status. */
  lemma TallyMatchesTableFilter(drivers: seq<User>, b: KycBucket)
    requires b != NotSubmittedBucket
    ensures Count(drivers, InBucket(StatusOf, b)) ==
      |ApplyTableFilters(drivers, NoFilters.(kycStatus := BucketName(b)), InitialSort)|
  {
    var f := NoFilters.(kycStatus := BucketName(b));
    var p := InBucket(StatusOf, b);
    var r := ApplyTableFilters(drivers, f, InitialSort);
    forall x ensures multiset(r)[x] == if p(x) then multiset(drivers)[x] else 0 {
      assert Matches(x, f, DriverCodeMap(drivers)) == p(x);
    }
    SameElementsAsFilter(r, drivers, p);
  }

  /** On a list where a driver has no documents and the flag `true`, the
      written tally and the drivers table disagree on the verified count. */
  lemma TallyAsWrittenDisagrees(u: User)
    requires u.kycApproved == B(true) && u.kycStatus != Some(Rejected) && |u.kycDocuments| == 0
    ensures Count([u], InBucket(DashboardStatusOf, VerifiedBucket)) == 1
    ensures Count([u], InBucket(StatusOf, VerifiedBucket)) == 0
  {
    assert [u][1..] == [];
    assert DashboardStatusOf(u) == Verified && StatusOf(u) == NotSubmitted;
    assert NotSubmitted[0] == 'n' && Verified[0] == 'v';
    assert BucketOf(NotSubmitted) == NotSubmittedBucket;
    assert InBucket(DashboardStatusOf, VerifiedBucket)(u);
    assert !InBucket(StatusOf, VerifiedBucket)(u);
  }

  // ---------------------------------------------------------------------
  // Driver cards
  // ---------------------------------------------------------------------

  /** `activeDrivers`: a driver counts as active unless `is_active` is
      literally `false`, the same rule as the table's status filter, which
      therefore lists exactly this many drivers. */
  lemma ActiveDriversMatchTable(drivers: seq<User>)
    ensures Count(drivers, DriverActive) ==
      |ApplyTableFilters(drivers, NoFilters.(status := "active"), InitialSort)|
    ensures Count(drivers, DriverActive) + Count(drivers, u => !DriverActive(u)) == |drivers|
  {
    var f := NoFilters.(status := "active");
    var r := ApplyTableFilters(drivers, f, InitialSort);
    forall x ensures multiset(r)[x] == if DriverActive(x) then multiset(drivers)[x] else 0 {
      assert Matches(x, f, DriverCodeMap(drivers)) == DriverActive(x);
    }
    SameElementsAsFilter(r, drivers, DriverActive);
    CountComplement(drivers, DriverActive);
  }

  predicate HasActiveVehicle(u: User) {
    u.vehicleActive != B(false) && u.vehicle.Some?
  }

  predicate HasInactiveVehicle(u: User) {
    u.vehicleActive == B(false) && u.vehicle.Some?
  }

  predicate WithoutVehicle(u: User) {
    u.vehicle.None?
  }

  /** The three vehicle counters split the drivers: their sum is the
      number of drivers. */
  lemma {:induction false} VehicleTalliesPartition(drivers: seq<User>)
    ensures Count(drivers, HasActiveVehicle) + Count(drivers, HasInactiveVehicle)
      + Count(drivers, WithoutVehicle) == |drivers|
  {
    if |drivers| > 0 {
      VehicleTalliesPartition(drivers[1..]);
    }
  }

  // ---------------------------------------------------------------------
  // Users table
  // ---------------------------------------------------------------------

  /** `driversData`: role exactly "driver". */
  predicate IsDriverRole(u: User) {
    u.role == Some("driver")
  }

  /** `clientsData` and the "rider" role filter: role client, customer or
      rider, or no role at all. */
  predicate IsClientRole(u: User) {
    u.role == Some("client") || u.role == Some("customer") || u.role == Some("rider") || !Present(u.role)
  }

  /** Nobody is both a driver and a client, so the two cards never count
      the same user twice. */
  lemma {:induction false} DriversAndClientsDisjoint(users: seq<User>)
    ensures Count(users, IsDriverRole) + Count(users, IsClientRole) <= |users|
  {
    CountDisjoint(users, IsDriverRole, IsClientRole);
  }

  /** The user search: id, email, name or display name contains the term,
      ignoring case. The id is always searched; a missing field never
      matches. */
  predicate UserSearchMatches(u: User, q: string): (b: bool)
    ensures IncludesIgnoringCase(u.id, q) ==> b
    ensures u.email.None? && u.name.None? && u.displayName.None? ==> (b <==> IncludesIgnoringCase(u.id, q))
  {
    IncludesIgnoringCase(u.id, q) || FieldMatches(u.email, q) || FieldMatches(u.name, q)
    || FieldMatches(u.displayName, q)
  }

  predicate RoleMatches(u: User, role: string) {
    if role == "rider" then IsClientRole(u) else u.role == Some(role)
  }

  /** `filterUsers(searchTerm, role)`: the users matching the search term
      (if any) and the role (unless "all"), in their original order. */
  function FilterUsers(users: seq<User>, q: string, role: string): (r: seq<User>)
    ensures IsSubsequence(r, users)
    ensures forall u :: u in r <==>
      u in users && (q == "" || UserSearchMatches(u, q)) && (role == "all" || RoleMatches(u, role))
  {
    var bySearch := (u: User) => UserSearchMatches(u, q);
    var byRole := (u: User) => RoleMatches(u, role);
    var s1 := if q != "" then Filter(users, bySearch) else users;
    var s2 := if role != "all" then Filter(s1, byRole) else s1;
    IsSubsequenceReflexive(users);
    IsSubsequenceReflexive(s1);
    IsSubsequenceTransitive(s2, s1, users);
    forall u ensures u in s2 <==>
      u in users && (q == "" || UserSearchMatches(u, q)) && (role == "all" || RoleMatches(u, role))
    {
      FilterMembership(users, bySearch, u);
      FilterMembership(s1, byRole, u);
    }
    s2
  }

  /** The "rider" role filter lists exactly as many users as the clients
      card counts. */
  lemma RiderFilterMatchesClientCount(users: seq<User>)
    ensures |FilterUsers(users, "", "rider")| == Count(users, IsClientRole)
  {
    CountIsFilterLength(users, IsClientRole);
    FilterExt(users, IsClientRole, (u: User) => RoleMatches(u, "rider"));
  }

  // ---------------------------------------------------------------------
  // Bookings
  // ---------------------------------------------------------------------

  /** The fields of a `bookings` document the overview reads. Amounts are
      whole numbers; `None` is a missing field or a stored `null`. */
  datatype Booking = Booking(
    id: string,
    status: Option<string>,
    fare: Option<int>,
    amount: Option<int>,
    pickupLocation: Option<string>,
    dropoffLocation: Option<string>,
    driverId: Option<string>,
    clientId: Option<string>)

  predicate IsActiveBooking(b: Booking) {
    b.status == Some("active") || b.status == Some("in-progress") || b.status == Some("ongoing")
    || b.status == Some("accepted")
  }

  predicate IsCompleted(b: Booking) {
    b.status == Some("completed")
  }

  predicate IsCancelled(b: Booking) {
    b.status == Some("cancelled")
  }

  predicate IsPendingBooking(b: Booking) {
    b.status == Some("pending") || b.status == Some("requested")
  }

  /** The four booking counters use disjoint status sets, so together they
      never exceed the number of bookings. */
  lemma {:induction false} BookingCountsBounded(bs: seq<Booking>)
    ensures Count(bs, IsActiveBooking) + Count(bs, IsCompleted) + Count(bs, IsCancelled)
      + Count(bs, IsPendingBooking) <= |bs|
  {
    if |bs| > 0 {
      BookingCountsBounded(bs[1..]);
    }
  }

  /** `x || fallback` for a number: 0 (and a missing value) is falsy. */
  function NumOr(x: Option<int>, fallback: int): (r: int)
    ensures x.Some? && x.value != 0 ==> r == x.value
    ensures !(x.Some? && x.value != 0) ==> r == fallback
  {
    if x.Some? && x.value != 0 then x.value else fallback
  }

  /** `booking.fare || booking.amount || 0`: a zero or missing fare falls
      back to the amount. */
  function FareOf(b: Booking): int {
    NumOr(b.fare, NumOr(b.amount, 0))
  }

  function SumFares(bs: seq<Booking>): int {
    if |bs| == 0 then 0 else FareOf(bs[0]) + SumFares(bs[1..])
  }

  /** `totalRevenue`: the fares of the completed bookings. */
  function TotalRevenue(bs: seq<Booking>): (r: int)
    ensures (forall i :: 0 <= i < |bs| ==> !IsCompleted(bs[i])) ==> r == 0
  {
    var done := Filter(bs, IsCompleted);
    assert (forall i :: 0 <= i < |bs| ==> !IsCompleted(bs[i])) ==> done == [] by {
      if |done| > 0 {
        assert multiset(done)[done[0]] > 0;
      }
    }
    SumFares(done)
  }

  lemma {:induction false} SumFaresAppend(a: seq<Booking>, b: seq<Booking>)
    ensures SumFares(a + b) == SumFares(a) + SumFares(b)
  {
    if |a| > 0 {
      assert (a + b)[1..] == a[1..] + b;
      SumFaresAppend(a[1..], b);
    } else {
      assert a + b == b;
    }
  }

  /** Revenue adds up over any split of the bookings, bookings that are not
      completed contribute nothing, and a completed booking contributes its
      fare, or its amount when the fare is zero or missing. */
  lemma {:induction false} TotalRevenueAdditive(a: seq<Booking>, b: seq<Booking>)
    ensures TotalRevenue(a + b) == TotalRevenue(a) + TotalRevenue(b)
  {
    if |a| > 0 {
      assert (a + b)[1..] == a[1..] + b;
      TotalRevenueAdditive(a[1..], b);
      assert (a + b)[0] == a[0];
    } else {
      assert a + b == b;
    }
  }

  lemma TotalRevenueOfOne(x: Booking)
    ensures TotalRevenue([x]) == if IsCompleted(x) then FareOf(x) else 0
    ensures IsCompleted(x) && x.fare == Some(0) ==> TotalRevenue([x]) == NumOr(x.amount, 0)
  {
    assert [x][1..] == [];
    assert Filter([x], IsCompleted) == if IsCompleted(x) then [x] else [];
    assert SumFares([x]) == FareOf(x) + SumFares([]);
  }

  /** The booking search: id, pickup, dropoff, driver id or client id
      contains the term, ignoring case. */
  predicate BookingSearchMatches(b: Booking, q: string) {
    IncludesIgnoringCase(b.id, q) || FieldMatches(b.pickupLocation, q) || FieldMatches(b.dropoffLocation, q)
    || FieldMatches(b.driverId, q) || FieldMatches(b.clientId, q)
  }

  /** `filterBookings(searchTerm, status)`: the search matches, further
      restricted to one exact status unless the status is "all", in their
      original order. */
  function FilterBookings(bs: seq<Booking>, q: string, status: string): (r: seq<Booking>)
    ensures IsSubsequence(r, bs)
    ensures forall b :: b in r <==>
      b in bs && (q == "" || BookingSearchMatches(b, q)) && (status == "all" || b.status == Some(status))
  {
    var bySearch := (b: Booking) => BookingSearchMatches(b, q);
    var byStatus := (b: Booking) => b.status == Some(status);
    var s1 := if q != "" then Filter(bs, bySearch) else bs;
    var s2 := if status != "all" then Filter(s1, byStatus) else s1;
    IsSubsequenceReflexive(bs);
    IsSubsequenceReflexive(s1);
    IsSubsequenceTransitive(s2, s1, bs);
    forall b ensures b in s2 <==>
      b in bs && (q == "" || BookingSearchMatches(b, q)) && (status == "all" || b.status == Some(status))
    {
      FilterMembership(bs, bySearch, b);
      FilterMembership(s1, byStatus, b);
    }
    s2
  }
}

=== FILE: download.dfy ===
/** The image download route: it reads `url` and `filename` from the
    query, asks the upstream store for the bytes, and answers either with
    the file as an attachment or with a JSON error. The fetch itself is an
    oracle: the model receives what the upstream answered for the url. */
module Download {
  import opened Wrappers
  import opened Text

  /** What the upstream fetch produced: an exception (network failure and
      the like) or a response. */
  datatype Upstream =
    | Threw(message: string)
    | Response(ok: bool, statusText: string, contentType: Option<string>, byteLength: nat)

  /** The route's answer. */
  datatype Reply =
    | JsonError(status: nat, error: string, details: Option<string>)
    | Attachment(status: nat, contentType: string, disposition: string, contentLength: string, cacheControl: string)

  const DefaultFilename := "document"
  const DefaultContentType := "application/octet-stream"
  const DispositionPrefix := "attachment; filename=\""

  /** The file extension: the first marker found, in the order `.pdf`,
      `.png`, `.jpeg`/`.jpg` in the url, then `pdf`, `png` in the content
      type, and `jpg` when nothing matches. */
  function Extension(url: string, contentType: string): (r: string)
    ensures r == "pdf" || r == "png" || r == "jpg"
    ensures |r| == 3
  {
    if Includes(url, ".pdf") then "pdf"
    else if Includes(url, ".png") then "png"
    else if Includes(url, ".jpeg") || Includes(url, ".jpg") then "jpg"
    else if Includes(contentType, "pdf") then "pdf"
    else if Includes(contentType, "png") then "png"
    else "jpg"
  }

  /** The url has one of the markers the extension choice looks for. */
  predicate UrlHasMarker(url: string) {
    Includes(url, ".pdf") || Includes(url, ".png") || Includes(url, ".jpeg") || Includes(url, ".jpg")
  }

  /** Each extension, described by the inputs that select it. A marker in
      the url always beats the content type, and "jpg" is also the
      fallback. */
  lemma ExtensionByOutcome(url: string, ct: string)
    ensures Extension(url, ct) == "pdf" <==>
      Includes(url, ".pdf") || (!UrlHasMarker(url) && Includes(ct, "pdf"))
    ensures Extension(url, ct) == "png" <==>
      (!Includes(url, ".pdf") && Includes(url, ".png"))
      || (!UrlHasMarker(url) && !Includes(ct, "pdf") && Includes(ct, "png"))
    ensures UrlHasMarker(url) ==> forall ct2 :: Extension(url, ct2) == Extension(url, ct)
  {
  }

  /** `attachment; filename="<filename>.<ext>"`. */
  function Disposition(filename: string, ext: string): (h: string)
    ensures |h| == |DispositionPrefix| + |filename| + 1 + |ext| + 1
  {
    DispositionPrefix + filename + "." + ext + "\""
  }

  /** The header gives back its filename and extension: the extension is
      always three letters, so the header determines both. */
  lemma DispositionParts(filename: string, ext: string)
    requires |ext| == 3
    ensures Disposition(filename, ext)[..|DispositionPrefix|] == DispositionPrefix
    ensures Disposition(filename, ext)[|DispositionPrefix|..|Disposition(filename, ext)| - 5] == filename
    ensures Disposition(filename, ext)[|Disposition(filename, ext)| - 5] == '.'
    ensures Disposition(filename, ext)[|Disposition(filename, ext)| - 4..|Disposition(filename, ext)| - 1] == ext
    ensures Disposition(filename, ext)[|Disposition(filename, ext)| - 1] == '"'
  {
    var h := Disposition(filename, ext);
    assert h == DispositionPrefix + filename + ['.'] + ext + ['"'];
  }

  lemma DispositionInjective(f1: string, e1: string, f2: string, e2: string)
    requires |e1| == 3 && |e2| == 3
    requires Disposition(f1, e1) == Disposition(f2, e2)
    ensures f1 == f2 && e1 == e2
  {
    DispositionParts(f1, e1);
    DispositionParts(f2, e2);
  }

  /** A character the Fetch `Headers` object accepts in a header value:
      a single byte other than NUL, CR and LF. Anything else makes the
      response's constructor throw a `TypeError`. */
  predicate HeaderValueChar(c: char) {
    c as int <= 0xFF && c != '\0' && c != '\r' && c != '\n'
  }

  predicate ValidHeaderValue(s: string) {
    forall i :: 0 <= i < |s| ==> HeaderValueChar(s[i])
  }

  /** The fixed parts of the disposition are plain ASCII, so the header is
      acceptable exactly when the filename is. */
  lemma DispositionValidIffFilename(filename: string, ext: string)
    requires ValidHeaderValue(ext)
    ensures ValidHeaderValue(Disposition(filename, ext)) <==> ValidHeaderValue(filename)
  {
    var h := Disposition(filename, ext);
    var n := |DispositionPrefix|;
    assert ValidHeaderValue(DispositionPrefix) by {
      forall i | 0 <= i < n ensures HeaderValueChar(DispositionPrefix[i]) {
        assert DispositionPrefix[i] in "attachment; filename=\"";
      }
    }
    assert h == DispositionPrefix + filename + "." + ext + "\"";
    assert forall i :: 0 <= i < |filename| ==> h[n + i] == filename[i];
    if ValidHeaderValue(filename) {
      forall i | 0 <= i < |h| ensures HeaderValueChar(h[i]) {
        if i < n {
          assert h[i] == DispositionPrefix[i];
        } else if i < n + |filename| {
          assert h[i] == filename[i - n];
        } else if i == n + |filename| {
          assert h[i] == '.';
        } else if i < n + |filename| + 1 + |ext| {
          assert h[i] == ext[i - n - |filename| - 1];
        } else {
          assert h[i] == '"';
        }
      }
    }
  }

  /** `GET /api/download-image?url=…&filename=…`. The fetch is looked at
      only when a url is given. Building the response throws when the
      disposition header holds a character no header value may hold;
      `headerError` is the message of that exception, which the route's
      catch reports like any other failure. */
  function Get(url: Option<string>, filename: Option<string>, fetch: string -> Upstream, headerError: string): (r: Reply)
    ensures !Present(url) ==> r == JsonError(400, "Missing image URL", None)
    ensures Present(url) && fetch(url.value).Threw? ==>
      r == JsonError(500, "Failed to download file", Some(fetch(url.value).message))
    ensures Present(url) && fetch(url.value).Response? && !fetch(url.value).ok ==>
      r == JsonError(500, "Failed to download file", Some("Failed to fetch image: " + fetch(url.value).statusText))
    ensures Present(url) && fetch(url.value).Response? && fetch(url.value).ok
            && !ValidHeaderValue(OrElse(filename, DefaultFilename)) ==>
      r == JsonError(500, "Failed to download file", Some(headerError))
    ensures r.Attachment? <==>
      Present(url) && fetch(url.value).Response? && fetch(url.value).ok && ValidHeaderValue(OrElse(filename, DefaultFilename))
  {
    if !Present(url) then JsonError(400, "Missing image URL", None)
    else
      var up := fetch(url.value);
      if up.Threw? then JsonError(500, "Failed to download file", Some(up.message))
      else if !up.ok then JsonError(500, "Failed to download file", Some("Failed to fetch image: " + up.statusText))
      else
        var ct := OrElse(up.contentType, DefaultContentType);
        var name := OrElse(filename, DefaultFilename);
        var ext := Extension(url.value, ct);
        assert ValidHeaderValue(ext) by {
          assert forall c :: c in "pdf" + "png" + "jpg" ==> HeaderValueChar(c);
          assert forall i :: 0 <= i < 3 ==> ext[i] in "pdf" + "png" + "jpg";
        }
        DispositionValidIffFilename(name, ext);
        var disposition := Disposition(name, ext);
        if !ValidHeaderValue(disposition) then JsonError(500, "Failed to download file", Some(headerError))
        else Attachment(200, ct, disposition, Decimal(up.byteLength), "no-cache")
  }

  /** A successful download: whenever the filename can stand in a header,
      the attachment carries the upstream content type (or the generic
      binary type), the requested filename (or "document") with the chosen
      extension, the byte count in decimal, and caching disabled. */
  lemma SuccessfulDownload(url: string, filename: Option<string>, fetch: string -> Upstream, headerError: string)
    requires url != "" && fetch(url).Response? && fetch(url).ok
    ensures ValidHeaderValue(OrElse(filename, DefaultFilename)) ==>
      var r := Get(Some(url), filename, fetch, headerError);
      && r.Attachment?
      && r.status == 200
      && r.contentType == OrElse(fetch(url).contentType, DefaultContentType)
      && r.disposition == Disposition(OrElse(filename, DefaultFilename), Extension(url, r.contentType))
      && ParseDecimal(r.contentLength) == fetch(url).byteLength
      && r.cacheControl == "no-cache"
  {
    ParseDecimalOfDecimal(fetch(url).byteLength);
  }

  /** A filename a header value cannot carry turns a good upstream answer
      into the generic 500, whatever the url and the bytes. */
  lemma InvalidFilenameFails(url: string, name: string, fetch: string -> Upstream, headerError: string)
    requires url != "" && fetch(url).Response? && fetch(url).ok
    requires exists i :: 0 <= i < |name| && (name[i] as int > 0xFF || name[i] == '\n')
    ensures Get(Some(url), Some(name), fetch, headerError) == JsonError(500, "Failed to download file", Some(headerError))
  {
  }

  /** Without a url nothing is fetched: the answer is the same whatever
      the upstream would have said. */
  lemma MissingUrlFetchesNothing(url: Option<string>, filename: Option<string>, f: string -> Upstream, g: string -> Upstream, e: string)
    requires !Present(url)
    ensures Get(url, filename, f, e) == Get(url, filename, g, e)
  {
  }

  /** A missing or empty filename parameter both give "document". */
  lemma EmptyFilenameIsDefault(url: Option<string>, fetch: string -> Upstream, e: string)
    ensures Get(url, Some(""), fetch, e) == Get(url, None, fetch, e) == Get(url, Some(DefaultFilename), fetch, e)
  {
  }
}

=== FILE: driver_codes.dfy ===
/** Display helpers of the drivers page: the `DRIVER001`, `DRIVER002`, ...
    codes assigned to driver ids in sorted order (`driverCodeMap`), and the
    readable name of a KYC document key (`formatDocumentName`). */
module DriverCodes {
  import opened Wrappers
  import opened Text
  import opened Users

  // ---------------------------------------------------------------------
  // Sorted, de-duplicated ids
  // ---------------------------------------------------------------------

  predicate StrictlyIncreasing(s: seq<string>) {
    forall i, j :: 0 <= i < j < |s| ==> LexLess(s[i], s[j])
  }

  /** Inserts `x` into a strictly increasing sequence, unless present. */
  function InsertUnique(x: string, s: seq<string>): (r: seq<string>)
    requires StrictlyIncreasing(s)
    ensures StrictlyIncreasing(r)
    ensures forall y :: y in r <==> y in s || y == x
  {
    if |s| == 0 then [x]
    else if x == s[0] then s
    else if LexLess(x, s[0]) then
      forall j | 0 < j < |s| ensures LexLess(x, s[j]) {
        LexLessTransitive(x, s[0], s[j]);
      }
      [x] + s
    else
      LexLessTotal(x, s[0]);
      var rest := InsertUnique(x, s[1..]);
      assert forall y :: y in rest ==> LexLess(s[0], y);
      [s[0]] + rest
  }

  /** `Array.from(new Set(ids)).sort()`: the distinct ids in ascending
      order. */
  function SortUnique(ids: seq<string>): (r: seq<string>)
    ensures StrictlyIncreasing(r)
    ensures forall y :: y in r <==> y in ids
  {
    if |ids| == 0 then []
    else InsertUnique(ids[|ids| - 1], SortUnique(ids[..|ids| - 1]))
  }

  /** `drivers.map(d => d.id).filter(Boolean)`. */
  function NonEmptyIds(us: seq<User>): (r: seq<string>)
    ensures forall x :: x in r <==> exists u :: u in us && u.id == x && x != ""
  {
    if |us| == 0 then []
    else
      var rest := NonEmptyIds(us[1..]);
      assert forall u :: u in us <==> u == us[0] || u in us[1..];
      (if us[0].id != "" then [us[0].id] else []) + rest
  }

  /** The set of ids that receive a code. */
  function IdSet(us: seq<User>): set<string> {
    set u | u in us && u.id != "" :: u.id
  }

  /** The ids of `ids` that sort before `id`. */
  function IdsBefore(ids: set<string>, id: string): set<string> {
    set x | x in ids && LexLess(x, id)
  }

  // ---------------------------------------------------------------------
  // Codes
  // ---------------------------------------------------------------------

  /** `DRIVER${String(k).padStart(3, '0')}`: the number is zero-padded to
      three digits, and wider numbers keep all their digits. */
  function DriverCode(k: nat): (c: string)
    ensures |c| == 6 + (if |Decimal(k)| >= 3 then |Decimal(k)| else 3)
    ensures c[..6] == "DRIVER"
    ensures k < 1000 ==> |c| == 9
  {
    DecimalBelowThousand(k);
    var digits := PadStart(Decimal(k), 3, '0');
    PaddedDecimalRoundTrip(k, 3);
    var c := "DRIVER" + digits;
    assert c[6..] == digits;
    c
  }

  /** The number after the `DRIVER` prefix of a code. */
  function CodeNumber(c: string): nat {
    if |c| >= 6 then ParseDecimal(c[6..]) else 0
  }

  /** The number a code was made from can be read back from it. */
  lemma DriverCodeNumber(k: nat)
    ensures AllDigits(DriverCode(k)[6..])
    ensures CodeNumber(DriverCode(k)) == k
  {
    var digits := PadStart(Decimal(k), 3, '0');
    PaddedDecimalRoundTrip(k, 3);
    assert DriverCode(k)[6..] == digits;
  }

  /** Different numbers give different codes. */
  lemma DriverCodeInjective(a: nat, b: nat)
    requires a != b
    ensures DriverCode(a) != DriverCode(b)
  {
    DriverCodeNumber(a);
    DriverCodeNumber(b);
  }

  lemma {:induction false} DistinctCardinality(s: seq<string>)
    requires StrictlyIncreasing(s)
    ensures |set x | x in s| == |s|
  {
    if |s| > 0 {
      var init := s[..|s| - 1];
      DistinctCardinality(init);
      var last := s[|s| - 1];
      assert (set x | x in s) == (set x | x in init) + {last};
      LexLessIrreflexive(last);
      assert last !in init;
    }
  }

  /** In a strictly increasing sequence the elements before position `i`
      are exactly those that sort before `s[i]`. */
  lemma RankInIncreasing(s: seq<string>, i: nat)
    requires StrictlyIncreasing(s) && i < |s|
    ensures (set x | x in s && LexLess(x, s[i])) == set x | x in s[..i]
    ensures |set x | x in s && LexLess(x, s[i])| == i
  {
    forall x | x in s && LexLess(x, s[i]) ensures x in s[..i] {
      var j :| 0 <= j < |s| && s[j] == x;
      if j == i {
        LexLessIrreflexive(x);
      } else if j > i {
        LexLessTransitive(s[i], s[j], s[i]);
        LexLessIrreflexive(s[i]);
      }
    }
    DistinctCardinality(s[..i]);
  }

  /** Numbers the ids of a strictly increasing sequence from 1 in order. */
  function Ranks(ids: seq<string>): (m: map<string, nat>)
    requires StrictlyIncreasing(ids)
    ensures m.Keys == set x | x in ids
    ensures forall i :: 0 <= i < |ids| ==> m[ids[i]] == i + 1
  {
    forall i, j | 0 <= i < |ids| && 0 <= j < |ids| && i != j ensures ids[i] != ids[j] {
      if i < j {
        LexLessIrreflexive(ids[i]);
      } else {
        LexLessIrreflexive(ids[j]);
      }
    }
    map i | 0 <= i < |ids| :: ids[i] := i + 1
  }

  /** The distinct non-empty ids in ascending order. */
  function SortedIds(us: seq<User>): (ids: seq<string>)
    ensures StrictlyIncreasing(ids)
    ensures (set x | x in ids) == IdSet(us)
  {
    SortUnique(NonEmptyIds(us))
  }

  /** Two lists whose records carry the same ids, place by place, keep
      the same non-empty ids in the same order. */
  lemma {:induction false} NonEmptyIdsOfSameIds(a: seq<User>, b: seq<User>)
    requires |a| == |b| && forall i :: 0 <= i < |a| ==> a[i].id == b[i].id
    ensures NonEmptyIds(a) == NonEmptyIds(b)
  {
    if |a| > 0 {
      NonEmptyIdsOfSameIds(a[1..], b[1..]);
    }
  }

  /** The codes depend on the ids alone: changing other fields of the
      records, in place, changes no code. */
  lemma SameIdsSameCodes(a: seq<User>, b: seq<User>)
    requires |a| == |b| && forall i :: 0 <= i < |a| ==> a[i].id == b[i].id
    ensures DriverCodeMap(a) == DriverCodeMap(b)
  {
    NonEmptyIdsOfSameIds(a, b);
    assert SortedIds(a) == SortedIds(b);
  }

  /** `driverCodeMap`: the `i`-th distinct non-empty id in ascending order
      receives `DRIVER<i>`, counting from 1, and no other key is present. */
  function DriverCodeMap(us: seq<User>): (m: map<string, string>)
    ensures m.Keys == IdSet(us)
    ensures forall i :: 0 <= i < |SortedIds(us)| ==> m[SortedIds(us)[i]] == DriverCode(i + 1)
  {
    var r := Ranks(SortedIds(us));
    map id | id in r :: DriverCode(r[id])
  }

  /** Where an id that receives a code sits among the sorted ids. */
  lemma PositionOf(us: seq<User>, id: string) returns (i: nat)
    requires id in IdSet(us)
    ensures i < |SortedIds(us)| && SortedIds(us)[i] == id
  {
    var ids := SortedIds(us);
    assert id in (set x | x in ids);
    i :| 0 <= i < |ids| && ids[i] == id;
  }

  /** The id at position `i` of the sorted ids receives code number
      `i + 1`. */
  lemma CodeAtPosition(us: seq<User>, i: nat)
    requires i < |SortedIds(us)|
    ensures SortedIds(us)[i] in DriverCodeMap(us)
    ensures DriverCodeMap(us)[SortedIds(us)[i]] == DriverCode(i + 1)
    ensures CodeNumber(DriverCodeMap(us)[SortedIds(us)[i]]) == i + 1
  {
    var ids := SortedIds(us);
    assert ids[i] in (set x | x in ids);
    DriverCodeNumber(i + 1);
  }

  /** The number in a driver's code is one more than the number of
      distinct ids sorting before that driver's id. */
  lemma DriverCodeIsRank(us: seq<User>, id: string)
    requires id in IdSet(us)
    ensures DriverCodeMap(us)[id] == DriverCode(1 + |IdsBefore(IdSet(us), id)|)
  {
    var i := PositionOf(us, id);
    CodeAtPosition(us, i);
    RankOfSorted(SortedIds(us), IdSet(us), i);
  }

  lemma RankOfSorted(ids: seq<string>, all: set<string>, i: nat)
    requires StrictlyIncreasing(ids) && (set x | x in ids) == all && i < |ids|
    ensures |IdsBefore(all, ids[i])| == i
  {
    RankInIncreasing(ids, i);
    assert IdsBefore(all, ids[i]) == set x | x in ids && LexLess(x, ids[i]);
  }

  /** Two ids in ascending order sit at ascending positions of the sorted
      ids. */
  lemma PositionsInOrder(us: seq<User>, a: string, b: string) returns (ia: nat, ib: nat)
    requires a in IdSet(us) && b in IdSet(us) && LexLess(a, b)
    ensures ia < ib < |SortedIds(us)| && SortedIds(us)[ia] == a && SortedIds(us)[ib] == b
  {
    ia := PositionOf(us, a);
    ib := PositionOf(us, b);
    LexLessAsymmetric(a, b);
    LexLessIrreflexive(a);
  }

  /** No two drivers share a code, and codes follow the order of the ids. */
  lemma DriverCodesDistinct(us: seq<User>, a: string, b: string)
    requires a in IdSet(us) && b in IdSet(us) && LexLess(a, b)
    ensures CodeNumber(DriverCodeMap(us)[a]) < CodeNumber(DriverCodeMap(us)[b])
    ensures DriverCodeMap(us)[a] != DriverCodeMap(us)[b]
  {
    var ia, ib := PositionsInOrder(us, a, b);
    CodeAtPosition(us, ia);
    CodeAtPosition(us, ib);
  }

  /** `driverCodeMap[id] || ''`. */
  function CodeOf(m: map<string, string>, id: string): string {
    if id in m then m[id] else ""
  }

  // ---------------------------------------------------------------------
  // Document names
  // ---------------------------------------------------------------------

  /** A character matched by `\w`. */
  predicate IsWordChar(c: char) {
    ('a' <= c <= 'z') || ('A' <= c <= 'Z') || ('0' <= c <= '9') || c == '_'
  }

  /** `.replace(/_/g, ' ')`. */
  function ReplaceUnderscores(s: string): (r: string)
    ensures |r| == |s|
    ensures forall i :: 0 <= i < |s| ==> r[i] == if s[i] == '_' then ' ' else s[i]
  {
    seq(|s|, i requires 0 <= i < |s| => if s[i] == '_' then ' ' else s[i])
  }

  /** A word character preceded by the start or by a non-word character:
      the characters `/\b\w/g` matches. */
  predicate StartsWord(s: string, i: int)
    requires 0 <= i < |s|
  {
    IsWordChar(s[i]) && (i == 0 || !IsWordChar(s[i - 1]))
  }

  /** `.replace(/\b\w/g, l => l.toUpperCase())`. */
  function CapitalizeWords(s: string): (r: string)
    ensures |r| == |s|
    ensures forall i :: 0 <= i < |s| ==> r[i] == if StartsWord(s, i) then UpperChar(s[i]) else s[i]
  {
    seq(|s|, i requires 0 <= i < |s| => if StartsWord(s, i) then UpperChar(s[i]) else s[i])
  }

  /** The index of the first occurrence of `t` in `s`, if any. */
  function FirstIndexOf(s: string, t: string): (r: Option<nat>)
    ensures r.Some? ==> OccursAt(s, t, r.value) && forall j :: 0 <= j < r.value ==> !OccursAt(s, t, j)
    ensures r.None? ==> forall j :: !OccursAt(s, t, j)
    decreases |s|
  {
    if IsPrefix(t, s) then
      assert OccursAt(s, t, 0);
      Some(0)
    else if |s| == 0 then
      None
    else
      assert !OccursAt(s, t, 0);
      match FirstIndexOf(s[1..], t)
      case None =>
        forall j ensures !OccursAt(s, t, j) {
          OccursShift(s, t, j);
        }
        None
      case Some(k) =>
        OccursShift(s, t, k + 1);
        forall j | 0 <= j <= k ensures !OccursAt(s, t, j) {
          OccursShift(s, t, j);
        }
        Some(k + 1)
  }

  /** An occurrence past the first character of `s` is an occurrence in
      `s[1..]`, one place earlier. */
  lemma OccursShift(s: string, t: string, j: int)
    requires |s| > 0
    ensures j > 0 ==> (OccursAt(s, t, j) <==> OccursAt(s[1..], t, j - 1))
  {
    if j > 0 && j + |t| <= |s| {
      assert s[1..][j - 1..j - 1 + |t|] == s[j..j + |t|];
    }
  }

  /** `.replace('Id', 'ID')`: only the first occurrence is replaced, wherever
      it stands. */
  function ReplaceFirstId(s: string): (r: string)
    ensures |r| == |s|
  {
    match FirstIndexOf(s, "Id")
    case None => s
    case Some(i) => s[..i] + "ID" + s[i + 2..]
  }

  /** `formatDocumentName`, as the page has it. */
  function FormatDocumentName(docId: string): (r: string)
    ensures |r| == |docId|
    ensures forall i :: 0 <= i < |r| ==> r[i] != '_'
    ensures ToLower(r) == ToLower(ReplaceUnderscores(docId))
  {
    var a := ReplaceUnderscores(docId);
    CapitalizeOnlyRecases(a);
    ReplaceFirstIdOnlyRecases(CapitalizeWords(a));
    ReplaceFirstId(CapitalizeWords(a))
  }

  /** Capitalising words changes letter case only and writes no
      underscore where there was none. */
  lemma CapitalizeOnlyRecases(a: string)
    ensures ToLower(CapitalizeWords(a)) == ToLower(a)
    ensures forall i :: 0 <= i < |a| && a[i] != '_' ==> CapitalizeWords(a)[i] != '_'
  {
    var b := CapitalizeWords(a);
    forall i | 0 <= i < |a| ensures LowerChar(b[i]) == LowerChar(a[i]) {
      LowerOfUpper(a[i]);
    }
  }

  /** Replacing the first "Id" by "ID" changes letter case only. */
  lemma ReplaceFirstIdOnlyRecases(b: string)
    ensures ToLower(ReplaceFirstId(b)) == ToLower(b)
    ensures forall i :: 0 <= i < |b| && b[i] != '_' ==> ReplaceFirstId(b)[i] != '_'
  {
    match FirstIndexOf(b, "Id")
    case None =>
    case Some(k) =>
      var r := ReplaceFirstId(b);
      assert b[k..k + 2] == "Id";
      assert b[k] == 'I' && b[k + 1] == 'd';
      forall i | 0 <= i < |b| ensures LowerChar(r[i]) == LowerChar(b[i]) && (b[i] != '_' ==> r[i] != '_') {
        if i < k {
          assert r[i] == b[i];
        } else if i == k {
          assert r[i] == 'I';
        } else if i == k + 1 {
          assert r[i] == 'D';
        } else {
          assert r[i] == b[i];
        }
      }
  }

  /** The formatted name differs from the key only in underscores turned
      into spaces and in letter case: it has the same length, no
      underscore, and the same lower-case form once underscores are
      spaces. */
  lemma FormatDocumentNameOnlyRecases(docId: string)
    ensures |FormatDocumentName(docId)| == |docId|
    ensures forall i :: 0 <= i < |docId| ==> FormatDocumentName(docId)[i] != '_'
    ensures ToLower(FormatDocumentName(docId)) == ToLower(ReplaceUnderscores(docId))
  {
    var a := ReplaceUnderscores(docId);
    CapitalizeOnlyRecases(a);
    ReplaceFirstIdOnlyRecases(CapitalizeWords(a));
  }

  /** The key the driver app uses for the front of the identity card comes
      out as intended. */
  lemma FormatDocumentNameExample()
    ensures FormatDocumentName("id_front") == "ID Front"
  {
    var a := ReplaceUnderscores("id_front");
    assert a == "id front";
    var b := CapitalizeWords(a);
    assert StartsWord(a, 0) && !StartsWord(a, 1) && StartsWord(a, 3);
    assert b == "Id Front";
    assert IsPrefix("Id", b);
    assert FirstIndexOf(b, "Id") == Some(0);
  }

  /** As written, the first "Id" is upper-cased wherever it stands, also
      at the start of a longer word: every key starting with "id" and a
      further lower-case letter, such as `identity_card`, is shown starting
      with "ID" glued to the rest of the word ("IDentity Card"). */
  lemma FormatDocumentNameSplitsWord(docId: string)
    requires |docId| >= 3 && docId[0] == 'i' && docId[1] == 'd' && IsLowerAscii(docId[2])
    ensures FormatDocumentName(docId)[..3] == ['I', 'D', docId[2]]
  {
    var b := CapitalizeWordsOfIdKey(docId);
    assert IsPrefix("Id", b);
    assert FirstIndexOf(b, "Id") == Some(0);
  }

  /** The first three characters of a key starting with "id" after the
      first two steps of the formatting. */
  function CapitalizeWordsOfIdKey(docId: string): (b: string)
    requires |docId| >= 3 && docId[0] == 'i' && docId[1] == 'd' && docId[2] != '_'
    ensures b == CapitalizeWords(ReplaceUnderscores(docId))
    ensures |b| == |docId| && b[0] == 'I' && b[1] == 'd' && b[2] == docId[2]
  {
    var a := ReplaceUnderscores(docId);
    assert a[0] == 'i' && a[1] == 'd' && a[2] == docId[2];
    assert StartsWord(a, 0) && !StartsWord(a, 1) && !StartsWord(a, 2);
    CapitalizeWords(a)
  }

  // ---------------------------------------------------------------------
  // Document names, corrected: "Id" as a whole word only
  // ---------------------------------------------------------------------

  /** The word "Id" stands at index `i`: it is neither preceded nor
      followed by a word character. */
  predicate WholeIdAt(s: string, i: int) {
    && OccursAt(s, "Id", i)
    && (i == 0 || !IsWordChar(s[i - 1]))
    && (i + 2 == |s| || !IsWordChar(s[i + 2]))
  }

  /** The first index at or after `from` where the word "Id" stands. */
  function FirstWholeId(s: string, from: nat): (r: Option<nat>)
    ensures r.Some? ==> from <= r.value && WholeIdAt(s, r.value)
    ensures r.Some? ==> forall j :: from <= j < r.value ==> !WholeIdAt(s, j)
    ensures r.None? ==> forall j :: from <= j ==> !WholeIdAt(s, j)
    decreases |s| - from
  {
    if from + 2 > |s| then None
    else if WholeIdAt(s, from) then Some(from)
    else FirstWholeId(s, from + 1)
  }

  /** `.replace(/\bId\b/, 'ID')`: the first whole word "Id" becomes "ID";
      "Id" inside a longer word is left alone. */
  function ReplaceWholeId(s: string): (r: string)
    ensures |r| == |s|
    ensures (forall j :: !WholeIdAt(s, j)) ==> r == s
  {
    match FirstWholeId(s, 0)
    case None => s
    case Some(i) => s[..i] + "ID" + s[i + 2..]
  }

  /** `formatDocumentName` with the abbreviation fixed as a whole word. */
  function FormatDocumentNameFixed(docId: string): string {
    ReplaceWholeId(CapitalizeWords(ReplaceUnderscores(docId)))
  }

  /** The corrected replacement changes letter case only, and only inside
      a whole word "Id". */
  lemma ReplaceWholeIdOnlyRecases(b: string)
    ensures ToLower(ReplaceWholeId(b)) == ToLower(b)
    ensures forall i :: 0 <= i < |b| && ReplaceWholeId(b)[i] != b[i] ==>
      WholeIdAt(b, i) || WholeIdAt(b, i - 1)
  {
    match FirstWholeId(b, 0)
    case None =>
    case Some(k) =>
      var r := ReplaceWholeId(b);
      assert b[k..k + 2] == "Id";
      assert b[k] == 'I' && b[k + 1] == 'd';
      forall i | 0 <= i < |b|
        ensures LowerChar(r[i]) == LowerChar(b[i])
        ensures r[i] != b[i] ==> WholeIdAt(b, i) || WholeIdAt(b, i - 1)
      {
        if i < k {
          assert r[i] == b[i];
        } else if i == k {
          assert r[i] == 'I';
        } else if i == k + 1 {
          assert r[i] == 'D';
        } else {
          assert r[i] == b[i];
        }
      }
  }

  /** The corrected name leaves a word that merely starts with "Id"
      alone: `identity_card` keeps its lower-case "d". */
  lemma FormatDocumentNameFixedKeepsWords(docId: string)
    requires |docId| >= 3 && docId[0] == 'i' && docId[1] == 'd' && IsLowerAscii(docId[2])
    ensures FormatDocumentNameFixed(docId)[..3] == ['I', 'd', docId[2]]
  {
    var b := CapitalizeWordsOfIdKey(docId);
    var r := ReplaceWholeId(b);
    ReplaceWholeIdOnlyRecases(b);
    assert !WholeIdAt(b, 0) && !WholeIdAt(b, 1) && !WholeIdAt(b, 2) && !WholeIdAt(b, -1);
    assert r[0] == b[0] && r[1] == b[1] && r[2] == b[2];
  }

  /** The key of the identity card front, `id_front`, still comes out as
      "ID Front": a word that is exactly "id" is upper-cased by both the
      written and the corrected formatting. */
  lemma IdWordUpperCased(docId: string)
    requires |docId| >= 3 && docId[0] == 'i' && docId[1] == 'd' && docId[2] == '_'
    ensures FormatDocumentNameFixed(docId)[..3] == "ID "
    ensures FormatDocumentName(docId)[..3] == "ID "
  {
    var a := ReplaceUnderscores(docId);
    assert a[0] == 'i' && a[1] == 'd' && a[2] == ' ';
    assert StartsWord(a, 0) && !StartsWord(a, 1) && !StartsWord(a, 2);
    var b := CapitalizeWords(a);
    assert b[0] == 'I' && b[1] == 'd' && b[2] == ' ';
    assert WholeIdAt(b, 0);
    assert FirstWholeId(b, 0) == Some(0);
    assert IsPrefix("Id", b);
    assert FirstIndexOf(b, "Id") == Some(0);
  }
}

=== FILE: drivers_table.dfy ===
/** The drivers table: the six column filters, the sort by name or by
    driver code, and the list the table shows (`applyTableFilters`),
    recomputed whenever the drivers, the filters or the sort change. */
module DriversTable {
  import opened Wrappers
  import opened Text
  import opened Seqs
  import opened Sorting
  import opened Users
  import opened Kyc
  import opened DriverCodes

  /** The filter inputs above the table; the empty string means "no
      filter on this column". */
  datatype TableFilters = TableFilters(
    name: string,
    code: string,
    vehicle: string,
    kycStatus: string,
    vehicleStatus: string,
    status: string)

  const NoFilters := TableFilters("", "", "", "", "", "")

  datatype Column = NameColumn | CodeColumn | VehicleColumn | KycColumn | VehicleStatusColumn | StatusColumn

  /** The sortable columns. */
  datatype SortKey = ByName | ByCode

  datatype Direction = Asc | Desc

  /** `sortConfig`; `key == None` means unsorted. */
  datatype SortConfig = SortConfig(key: Option<SortKey>, direction: Direction)

  const InitialSort := SortConfig(None, Asc)

  /** `handleTableFilterChange(column, value)`: one column's input takes
      the new value, the others keep theirs. */
  function SetFilter(f: TableFilters, column: Column, value: string): (r: TableFilters)
    ensures ValueOf(r, column) == value
    ensures forall c :: c != column ==> ValueOf(r, c) == ValueOf(f, c)
  {
    match column
    case NameColumn => f.(name := value)
    case CodeColumn => f.(code := value)
    case VehicleColumn => f.(vehicle := value)
    case KycColumn => f.(kycStatus := value)
    case VehicleStatusColumn => f.(vehicleStatus := value)
    case StatusColumn => f.(status := value)
  }

  function ValueOf(f: TableFilters, column: Column): string {
    match column
    case NameColumn => f.name
    case CodeColumn => f.code
    case VehicleColumn => f.vehicle
    case KycColumn => f.kycStatus
    case VehicleStatusColumn => f.vehicleStatus
    case StatusColumn => f.status
  }

  /** `handleSort(key)`: a click on the column already sorted ascending
      turns it descending; any other click sorts that column ascending. */
  function HandleSort(prev: SortConfig, key: SortKey): (r: SortConfig)
    ensures r.key == Some(key)
    ensures r.direction == Desc <==> prev.key == Some(key) && prev.direction == Asc
  {
    SortConfig(Some(key), if prev.key == Some(key) && prev.direction == Asc then Desc else Asc)
  }

  /** Clicking the same column again always reverses the direction, and
      two further clicks come back to where they started. */
  lemma SortClicksAlternate(prev: SortConfig, key: SortKey)
    ensures HandleSort(HandleSort(prev, key), key).direction != HandleSort(prev, key).direction
    ensures HandleSort(HandleSort(HandleSort(prev, key), key), key) == HandleSort(prev, key)
  {
  }

  /** A first click on a column, or a click after another column was
      sorted, sorts ascending. */
  lemma NewColumnSortsAscending(prev: SortConfig, key: SortKey)
    requires prev.key != Some(key)
    ensures HandleSort(prev, key) == SortConfig(Some(key), Asc)
  {
  }

  // ---------------------------------------------------------------------
  // Column predicates
  // ---------------------------------------------------------------------

  /** `driver.username || driver.name || ''`: the name shown, searched and
      sorted by. */
  function NameKey(u: User): string {
    OrElse(u.username, OrElse(u.name, ""))
  }

  /** The name filter searches the shown name and the email, ignoring
      case. */
  predicate NameMatches(u: User, q: string) {
    IncludesIgnoringCase(NameKey(u), q) || FieldMatches(u.email, q)
  }

  /** The vehicle filter searches brand, model and plate number; a driver
      without a vehicle never matches. */
  predicate VehicleMatches(u: User, q: string) {
    u.vehicle.Some? &&
      (FieldMatches(u.vehicle.value.brand, q) || FieldMatches(u.vehicle.value.model, q)
       || FieldMatches(u.vehicle.value.number, q))
  }

  /** The code filter searches the driver's code, ignoring case; a driver
      without a code is searched as the empty string. */
  predicate CodeMatches(u: User, q: string, codes: map<string, string>) {
    IncludesIgnoringCase(CodeOf(codes, u.id), q)
  }

  /** A driver passes every column filter that is set. */
  predicate Matches(u: User, f: TableFilters, codes: map<string, string>): (b: bool)
    ensures f == NoFilters ==> b
    ensures b && f.kycStatus != "" ==> StatusOf(u) == f.kycStatus
    ensures b && f.vehicleStatus != "" ==> u.vehicle.Some?
  {
    && (f.name == "" || NameMatches(u, f.name))
    && (f.vehicle == "" || VehicleMatches(u, f.vehicle))
    && (f.kycStatus == "" || StatusOf(u) == f.kycStatus)
    && (f.vehicleStatus == "" || VehicleFilterMatches(u, f.vehicleStatus))
    && (f.status == "" || StatusFilterMatches(u, f.status))
    && (f.code == "" || CodeMatches(u, f.code, codes))
  }

  /** One filter step: `if (value) filtered = filtered.filter(p)`. */
  function Step(s: seq<User>, value: string, p: User -> bool): (r: seq<User>)
    ensures forall x :: multiset(r)[x] == if value == "" || p(x) then multiset(s)[x] else 0
    ensures IsSubsequence(r, s)
  {
    if value == "" then
      IsSubsequenceReflexive(s);
      s
    else Filter(s, p)
  }

  /** The sort key of a row. */
  function SortKeyOf(key: SortKey, codes: map<string, string>): User -> string {
    match key
    case ByName => (u: User) => NameKey(u)
    case ByCode => (u: User) => CodeOf(codes, u.id)
  }

  /** `applyTableFilters`: the filters in the order the page applies them,
      then the stable sort. The rows shown are exactly the drivers passing
      every set filter, each as often as in the input; unsorted they keep
      the input order, sorted they are ordered by the key. */
  function ApplyTableFilters(drivers: seq<User>, f: TableFilters, sort: SortConfig): (r: seq<User>)
    ensures forall x ::
      multiset(r)[x] == (if Matches(x, f, DriverCodeMap(drivers)) then multiset(drivers)[x] else 0)
    ensures sort.key.None? ==> IsSubsequence(r, drivers)
    ensures sort.key.Some? ==>
      SortedBy(r, SortKeyOf(sort.key.value, DriverCodeMap(drivers)), sort.direction == Desc)
  {
    var codes := DriverCodeMap(drivers);
    var s1 := Step(drivers, f.name, (u: User) => NameMatches(u, f.name));
    var s2 := Step(s1, f.vehicle, (u: User) => VehicleMatches(u, f.vehicle));
    var s3 := Step(s2, f.kycStatus, (u: User) => StatusOf(u) == f.kycStatus);
    var s4 := Step(s3, f.vehicleStatus, (u: User) => VehicleFilterMatches(u, f.vehicleStatus));
    var s5 := Step(s4, f.status, (u: User) => StatusFilterMatches(u, f.status));
    var s6 := Step(s5, f.code, (u: User) => CodeMatches(u, f.code, codes));
    if sort.key.None? then
      IsSubsequenceTransitive(s6, s5, s4);
      IsSubsequenceTransitive(s6, s4, s3);
      IsSubsequenceTransitive(s6, s3, s2);
      IsSubsequenceTransitive(s6, s2, s1);
      IsSubsequenceTransitive(s6, s1, drivers);
      s6
    else
      SortBy(s6, SortKeyOf(sort.key.value, codes), sort.direction == Desc)
  }

  /** A row is shown exactly when the driver is in the list and passes
      every set filter. */
  lemma ShownIffMatches(drivers: seq<User>, f: TableFilters, sort: SortConfig, u: User)
    ensures u in ApplyTableFilters(drivers, f, sort) <==>
      u in drivers && Matches(u, f, DriverCodeMap(drivers))
  {
    var r := ApplyTableFilters(drivers, f, sort);
    assert u in r <==> multiset(r)[u] > 0;
    assert u in drivers <==> multiset(drivers)[u] > 0;
  }

  /** With every filter cleared and no sort (`clearAllFilters`), the table
      shows all drivers in their fetched order. */
  lemma ClearedTableShowsAll(drivers: seq<User>)
    ensures ApplyTableFilters(drivers, NoFilters, InitialSort) == drivers
  {
  }
}

=== FILE: kyc.dfy ===
/** The KYC status engine of the drivers page: the display status derived
    from `kyc_approved`, `kycStatus` and the number of KYC documents, the
    completeness check that gates the Approve action, and the
    "absent means active" reading of `vehicleActive` and `is_active`. */
module Kyc {
  import opened Wrappers
  import opened Text
  import opened Users

  const Verified: string := "verified"
  const Rejected: string := "rejected"
  const Pending: string := "pending"
  const Submitted: string := "submitted"
  const NotSubmitted: string := "not-submitted"

  /** The statuses the engine itself produces; any other result is a
      `kycStatus` text passed through. */
  predicate IsCanonical(s: string) {
    s == Verified || s == Rejected || s == Pending || s == Submitted || s == NotSubmitted
  }

  /** `getKYCDisplayStatus` of the drivers page. The document count is
      looked at first, so a driver without documents is never shown as
      pending, submitted or verified; then a genuine boolean
      `kyc_approved` decides; then documents with no meaningful status
      text read as submitted; otherwise the text is shown as it is. */
  function DisplayStatus(approved: Tri, status: Option<string>, documentCount: nat): (r: string)
    ensures documentCount == 0 ==> r == Rejected || r == NotSubmitted
    ensures IsCanonical(r) || (Present(status) && r == status.value)
  {
    if documentCount == 0 then
      if status == Some(Rejected) || approved == B(false) then Rejected else NotSubmitted
    else if approved.B? then
      if approved.value then Verified
      else if status == Some(Rejected) then Rejected
      else Pending
    else if !Present(status) || status == Some(NotSubmitted) then Submitted
    else OrElse(status, NotSubmitted)
  }

  /** The display status of a user record. */
  function StatusOf(u: User): string {
    DisplayStatus(u.kycApproved, u.kycStatus, DocumentCount(u))
  }

  /** Each display status, described by the inputs that produce it rather
      than by the order of the tests. "verified" can come from the flag or
      from a passed-through status text when the flag is not a boolean. */
  lemma DisplayStatusByOutcome(a: Tri, st: Option<string>, n: nat)
    ensures DisplayStatus(a, st, n) == Verified <==>
      n > 0 && (a == B(true) || (!a.B? && st == Some(Verified)))
    ensures DisplayStatus(a, st, n) == Rejected <==>
      (n == 0 && (st == Some(Rejected) || a == B(false))) || (n > 0 && st == Some(Rejected) && a != B(true))
    ensures DisplayStatus(a, st, n) == Pending <==>
      n > 0 && ((a == B(false) && st != Some(Rejected)) || (!a.B? && st == Some(Pending)))
    ensures DisplayStatus(a, st, n) == Submitted <==>
      n > 0 && !a.B? && (!Present(st) || st == Some(NotSubmitted) || st == Some(Submitted))
    ensures DisplayStatus(a, st, n) == NotSubmitted <==>
      n == 0 && st != Some(Rejected) && a != B(false)
    ensures !IsCanonical(DisplayStatus(a, st, n)) <==>
      n > 0 && !a.B? && Present(st) && !IsCanonical(st.value)
  {
  }

  /** The table's KYC column hands over `driver.kycStatus || 'not-submitted'`
      instead of the raw field; the derivation cannot tell the difference. */
  lemma BadgeFallbackHarmless(a: Tri, st: Option<string>, n: nat)
    ensures DisplayStatus(a, Some(OrElse(st, NotSubmitted)), n) == DisplayStatus(a, st, n)
  {
  }

  // ---------------------------------------------------------------------
  // Submission completeness
  // ---------------------------------------------------------------------

  /** `!!doc.url`. */
  predicate HasUrl(d: KycDoc) {
    Present(d.url)
  }

  /** `isKycSubmissionComplete`: there is at least one document and every
      document value has a non-empty url. */
  function SubmissionComplete(docs: map<string, KycDoc>): (b: bool)
    ensures b <==> |docs| > 0 && forall k :: k in docs ==> HasUrl(docs[k])
  {
    if |docs| == 0 then false
    else
      var values := docs.Values;
      assert forall k :: k in docs ==> docs[k] in values;
      forall d :: d in values ==> HasUrl(d)
  }

  /** The Approve action is offered (menu and details modal) when the
      driver is not already shown as verified and the submission is
      complete. */
  predicate ApproveOffered(u: User): (b: bool)
    ensures b <==> SubmissionComplete(u.kycDocuments) && u.kycApproved != B(true)
                   && (u.kycApproved.B? || u.kycStatus != Some(Verified))
  {
    StatusOf(u) != Verified && SubmissionComplete(u.kycDocuments)
  }

  /** The Reject action is offered when the driver is shown neither as
      verified nor as rejected. */
  predicate RejectOffered(u: User): (b: bool)
    ensures b <==> StatusOf(u) == Pending || StatusOf(u) == Submitted || StatusOf(u) == NotSubmitted
                   || !IsCanonical(StatusOf(u))
    ensures DocumentCount(u) == 0 ==> (b <==> u.kycStatus != Some(Rejected) && u.kycApproved != B(false))
  {
    StatusOf(u) != Verified && StatusOf(u) != Rejected
  }

  /** Whoever is offered Approve has at least one document, so the approval
      it writes is the one the derivation then honours. */
  lemma ApproveOfferedHasDocuments(u: User)
    requires ApproveOffered(u)
    ensures DocumentCount(u) >= 1
    ensures u.kycApproved != B(true)
  {
  }

  // ---------------------------------------------------------------------
  // "Absent means active"
  // ---------------------------------------------------------------------

  /** `driver.vehicleActive !== false`. */
  predicate VehicleActive(u: User) {
    u.vehicleActive != B(false)
  }

  /** `driver.is_active !== false`. */
  predicate DriverActive(u: User) {
    u.isActive != B(false)
  }

  /** The status filter: "active" keeps drivers whose `is_active` is not
      literally `false`, "inactive" keeps the others, any other value keeps
      everyone. */
  predicate StatusFilterMatches(u: User, value: string): (b: bool)
    ensures value == "active" ==> (b <==> u.isActive != B(false))
    ensures value == "inactive" ==> (b <==> u.isActive == B(false))
    ensures value != "active" && value != "inactive" ==> b
  {
    if value == "active" then DriverActive(u)
    else if value == "inactive" then !DriverActive(u)
    else true
  }

  /** The vehicle-status filter: drivers without a vehicle never match. */
  predicate VehicleFilterMatches(u: User, value: string): (b: bool)
    ensures b ==> u.vehicle.Some?
    ensures value == "active" ==> (b <==> u.vehicle.Some? && u.vehicleActive != B(false))
    ensures value == "inactive" ==> (b <==> u.vehicle.Some? && u.vehicleActive == B(false))
    ensures value != "active" && value != "inactive" ==> !b
  {
    u.vehicle.Some? && VehicleStatusLabel(u) == value
  }

  /** The label the vehicle-status filter and badge compare against. */
  function VehicleStatusLabel(u: User): (r: string)
    ensures r == "active" <==> u.vehicleActive != B(false)
    ensures r == "inactive" <==> u.vehicleActive == B(false)
  {
    if VehicleActive(u) then "active" else "inactive"
  }
}

=== FILE: kyc_actions.dfy ===
/** The admin actions of the drivers page as transitions of the page's two
    driver lists: `updateKYCStatus` (approve, reject, reject with
    resubmission), `setDriverStatus` and `updateVehicleStatus`. The
    Firestore calls they make are an oracle that says which calls succeed;
    the clock is the `now` parameter. */
module KycActions {
  import opened Wrappers
  import opened Text
  import opened Users
  import opened Kyc
  import opened DriverCodes
  import opened DriversTable

  /** The field set `updateKYCStatus` sends to `updateDoc`.
      `kycRejectionReason` is `None` when the field is left out of the
      write, so that the stored value is kept. */
  datatype KycPatch = KycPatch(
    kycApproved: Tri,
    kycStatus: string,
    kycVerifiedAt: Option<int>,
    kycRejectedAt: Option<int>,
    updatedAt: int,
    kycRejectionReason: Option<string>)

  /** What a successful action wrote to the user's document. */
  datatype Write =
    | KycWrite(patch: KycPatch)
    | ActiveWrite(isActive: bool, at: int)
    | VehicleWrite(vehicleActive: bool, at: int)

  /** The outcome of the store calls: whether deleting the `kyc`
      sub-collection succeeds and whether `updateDoc` succeeds. */
  datatype Store = Store(clearSucceeds: bool, updateSucceeds: bool)

  /** The page state the actions update: the fetched drivers and the
      table's filters and sort. The rows the table shows are not stored:
      the effect watching the drivers, the filters and the sort recomputes
      them after every change, so the list each action also maps by hand
      is replaced as soon as the effect has run (see `Table`). */
  datatype DriversView = DriversView(drivers: seq<User>, filters: TableFilters, sort: SortConfig)

  /** The view after the action, whether the documents were deleted, and
      what was written. */
  datatype Outcome = Outcome(view: DriversView, documentsCleared: bool, written: Option<Write>)

  /** Rejection with resubmission is the only path that deletes documents. */
  predicate ClearsDocuments(approved: bool, allowResubmission: bool) {
    !approved && allowResubmission
  }

  /** The update `updateKYCStatus` builds. */
  function KycUpdate(approved: bool, reason: Option<string>, allowResubmission: bool, now: int): (p: KycPatch)
    ensures p.updatedAt == now
    ensures approved ==> p.kycApproved == B(true) && p.kycStatus == Verified
                         && p.kycVerifiedAt == Some(now) && p.kycRejectedAt == None
    ensures !approved ==> p.kycVerifiedAt == None && p.kycRejectedAt == Some(now)
    ensures !approved && !allowResubmission ==> p.kycApproved == B(false) && p.kycStatus == Rejected
    ensures ClearsDocuments(approved, allowResubmission) ==> p.kycApproved == Null && p.kycStatus == NotSubmitted
    ensures p.kycRejectionReason.Some? <==> !approved && Present(reason)
    ensures p.kycRejectionReason.Some? ==> p.kycRejectionReason == reason
  {
    var base := KycPatch(
      B(approved),
      if approved then Verified else Rejected,
      if approved then Some(now) else None,
      if !approved then Some(now) else None,
      now,
      if Present(reason) && !approved then reason else None);
    if ClearsDocuments(approved, allowResubmission) then
      base.(kycStatus := NotSubmitted, kycApproved := Null)
    else
      base
  }

  /** `{ ...driver, ...updateData }`, with `kycDocuments` emptied when the
      documents were deleted. */
  function MergeKyc(u: User, p: KycPatch, clearDocuments: bool): (v: User)
    ensures v.kycApproved == p.kycApproved && v.kycStatus == Some(p.kycStatus)
    ensures v.kycVerifiedAt == p.kycVerifiedAt && v.kycRejectedAt == p.kycRejectedAt
    ensures v.updatedAt == Some(p.updatedAt)
    ensures v.kycRejectionReason == if p.kycRejectionReason.Some? then p.kycRejectionReason else u.kycRejectionReason
    ensures v.kycDocuments == if clearDocuments then map[] else u.kycDocuments
    ensures v.(kycApproved := u.kycApproved, kycStatus := u.kycStatus, kycVerifiedAt := u.kycVerifiedAt,
               kycRejectedAt := u.kycRejectedAt, updatedAt := u.updatedAt,
               kycRejectionReason := u.kycRejectionReason, kycDocuments := u.kycDocuments) == u
  {
    u.(kycApproved := p.kycApproved,
       kycStatus := Some(p.kycStatus),
       kycVerifiedAt := p.kycVerifiedAt,
       kycRejectedAt := p.kycRejectedAt,
       updatedAt := Some(p.updatedAt),
       kycRejectionReason := if p.kycRejectionReason.Some? then p.kycRejectionReason else u.kycRejectionReason,
       kycDocuments := if clearDocuments then map[] else u.kycDocuments)
  }

  /** `list.map(d => d.id === id ? f(d) : d)`: the records with the id are
      replaced by their updated form and every other record stays as it
      was, in place. */
  function UpdateWhere(us: seq<User>, id: string, f: User -> User): (r: seq<User>)
    ensures |r| == |us|
    ensures forall i :: 0 <= i < |us| && us[i].id != id ==> r[i] == us[i]
    ensures forall i :: 0 <= i < |us| && us[i].id == id ==> r[i] == f(us[i])
  {
    if |us| == 0 then []
    else [if us[0].id == id then f(us[0]) else us[0]] + UpdateWhere(us[1..], id, f)
  }

  /** Applies a per-record update to the fetched drivers. */
  function UpdateView(v: DriversView, id: string, f: User -> User): DriversView {
    v.(drivers := UpdateWhere(v.drivers, id, f))
  }

  /** The rows the table shows once the effect has recomputed them. */
  function Table(v: DriversView): (t: seq<User>)
    ensures forall w :: w in t <==> w in v.drivers && Matches(w, v.filters, DriverCodeMap(v.drivers))
  {
    var t := ApplyTableFilters(v.drivers, v.filters, v.sort);
    assert forall w :: w in t <==> w in v.drivers && Matches(w, v.filters, DriverCodeMap(v.drivers)) by {
      forall w ensures w in t <==> w in v.drivers && Matches(w, v.filters, DriverCodeMap(v.drivers)) {
        ShownIffMatches(v.drivers, v.filters, v.sort, w);
      }
    }
    t
  }

  /** `updateKYCStatus(driverId, approved, reason, allowResubmission)`.
      Rejection with resubmission first deletes the `kyc` sub-collection;
      if that throws, nothing is written and the view is unchanged. If
      `updateDoc` throws, the view is unchanged too. */
  function UpdateKycStatus(v: DriversView, driverId: string, approved: bool, reason: Option<string>,
                           allowResubmission: bool, now: int, store: Store): (r: Outcome)
    ensures r.documentsCleared <==> ClearsDocuments(approved, allowResubmission) && store.clearSucceeds
    ensures r.written.Some? <==>
      store.updateSucceeds && (!ClearsDocuments(approved, allowResubmission) || store.clearSucceeds)
    ensures r.written.Some? ==> r.written == Some(KycWrite(KycUpdate(approved, reason, allowResubmission, now)))
    ensures r.written.None? ==> r.view == v
    ensures r.view.filters == v.filters && r.view.sort == v.sort
    ensures |r.view.drivers| == |v.drivers|
    ensures r.written.Some? ==>
      var p := KycUpdate(approved, reason, allowResubmission, now);
      var clears := ClearsDocuments(approved, allowResubmission);
      forall i :: 0 <= i < |v.drivers| ==>
        r.view.drivers[i] == if v.drivers[i].id == driverId then MergeKyc(v.drivers[i], p, clears) else v.drivers[i]
  {
    var clears := ClearsDocuments(approved, allowResubmission);
    if clears && !store.clearSucceeds then
      Outcome(v, false, None)
    else if !store.updateSucceeds then
      Outcome(v, clears, None)
    else
      var p := KycUpdate(approved, reason, allowResubmission, now);
      Outcome(UpdateView(v, driverId, u => MergeKyc(u, p, clears)), clears, Some(KycWrite(p)))
  }

  /** `setDriverStatus(driverId, newStatus)`: the write carries a timestamp
      but only `is_active` is merged locally. */
  function SetDriverStatus(v: DriversView, driverId: string, newStatus: bool, now: int, store: Store): (r: Outcome)
    ensures !r.documentsCleared
    ensures r.written.Some? <==> store.updateSucceeds
    ensures r.written.Some? ==> r.written == Some(ActiveWrite(newStatus, now))
    ensures r.written.None? ==> r.view == v
    ensures r.view.filters == v.filters && r.view.sort == v.sort
    ensures |r.view.drivers| == |v.drivers|
    ensures r.written.Some? ==> forall i :: 0 <= i < |v.drivers| ==>
      r.view.drivers[i] == if v.drivers[i].id == driverId then v.drivers[i].(isActive := B(newStatus)) else v.drivers[i]
  {
    if !store.updateSucceeds then Outcome(v, false, None)
    else Outcome(UpdateView(v, driverId, (u: User) => u.(isActive := B(newStatus))), false, Some(ActiveWrite(newStatus, now)))
  }

  /** `updateVehicleStatus(driverId, isActive)`: both fields of the write
      are merged locally. */
  function UpdateVehicleStatus(v: DriversView, driverId: string, isActive: bool, now: int, store: Store): (r: Outcome)
    ensures !r.documentsCleared
    ensures r.written.Some? <==> store.updateSucceeds
    ensures r.written.Some? ==> r.written == Some(VehicleWrite(isActive, now))
    ensures r.written.None? ==> r.view == v
    ensures r.view.filters == v.filters && r.view.sort == v.sort
    ensures |r.view.drivers| == |v.drivers|
    ensures r.written.Some? ==> forall i :: 0 <= i < |v.drivers| ==>
      r.view.drivers[i] == if v.drivers[i].id == driverId
        then v.drivers[i].(vehicleActive := B(isActive), updatedAt := Some(now))
        else v.drivers[i]
  {
    if !store.updateSucceeds then Outcome(v, false, None)
    else
      Outcome(UpdateView(v, driverId, (u: User) => u.(vehicleActive := B(isActive), updatedAt := Some(now))),
              false, Some(VehicleWrite(isActive, now)))
  }

  // ---------------------------------------------------------------------
  // The table after an action
  // ---------------------------------------------------------------------

  /** Every record of the updated list comes from the record at the same
      place before the update. */
  lemma UpdatedMember(us: seq<User>, id: string, f: User -> User, w: User) returns (i: nat)
    requires w in UpdateWhere(us, id, f)
    ensures i < |us| && UpdateWhere(us, id, f)[i] == w
    ensures w == if us[i].id == id then f(us[i]) else us[i]
  {
    var r := UpdateWhere(us, id, f);
    var k :| 0 <= k < |r| && r[k] == w;
    i := k;
  }

  /** An update that keeps every record's id leaves the other drivers'
      rows alone: the driver codes are unchanged, and a row of another
      driver is shown afterwards exactly when it was shown before. */
  lemma OtherRowsUnchanged(v: DriversView, id: string, f: User -> User)
    requires forall u :: f(u).id == u.id
    ensures DriverCodeMap(UpdateView(v, id, f).drivers) == DriverCodeMap(v.drivers)
    ensures forall w: User :: w.id != id ==> (w in Table(UpdateView(v, id, f)) <==> w in Table(v))
  {
    var d := UpdateView(v, id, f).drivers;
    assert forall i :: 0 <= i < |d| ==> d[i].id == v.drivers[i].id;
    SameIdsSameCodes(d, v.drivers);
    forall w: User | w.id != id
      ensures w in d <==> w in v.drivers
    {
      if w in d {
        var i := UpdatedMember(v.drivers, id, f, w);
      }
      if w in v.drivers {
        var i :| 0 <= i < |v.drivers| && v.drivers[i] == w;
        assert d[i] == w;
      }
    }
  }

  // ---------------------------------------------------------------------
  // Re-deriving the badge after an action
  // ---------------------------------------------------------------------

  /** Approving a complete submission shows "verified", and takes the
      Approve and Reject actions off the menu. The stored rejection reason
      survives: approval never writes that field. */
  lemma ApproveShowsVerified(u: User, now: int)
    requires SubmissionComplete(u.kycDocuments)
    ensures StatusOf(MergeKyc(u, KycUpdate(true, None, false, now), false)) == Verified
    ensures MergeKyc(u, KycUpdate(true, None, false, now), false).kycRejectionReason == u.kycRejectionReason
    ensures !ApproveOffered(MergeKyc(u, KycUpdate(true, None, false, now), false))
    ensures !RejectOffered(MergeKyc(u, KycUpdate(true, None, false, now), false))
  {
  }

  /** Rejecting without resubmission keeps the documents and shows
      "rejected" whatever their number; the reason is stored only when it
      is non-empty. */
  lemma RejectShowsRejected(u: User, reason: Option<string>, now: int)
    ensures StatusOf(MergeKyc(u, KycUpdate(false, reason, false, now), false)) == Rejected
    ensures MergeKyc(u, KycUpdate(false, reason, false, now), false).kycDocuments == u.kycDocuments
    ensures MergeKyc(u, KycUpdate(false, reason, false, now), false).kycRejectionReason
            == if Present(reason) then reason else u.kycRejectionReason
    ensures !RejectOffered(MergeKyc(u, KycUpdate(false, reason, false, now), false))
  {
  }

  /** Rejecting with resubmission empties the documents and resets the
      record to "not-submitted": the rejection leaves no visible trace. */
  lemma ResubmissionShowsNotSubmitted(u: User, reason: Option<string>, now: int)
    ensures MergeKyc(u, KycUpdate(false, reason, true, now), true).kycDocuments == map[]
    ensures StatusOf(MergeKyc(u, KycUpdate(false, reason, true, now), true)) == NotSubmitted
    ensures !ApproveOffered(MergeKyc(u, KycUpdate(false, reason, true, now), true))
  {
  }

  /** Through the whole page action: after a successful approve, every
      record with the driver's id and a complete submission shows
      "verified", and the other drivers' rows are shown exactly as before.
      Since the table is recomputed, an approved driver stays on screen
      only when no KYC filter is set or the filter is "verified": under
      the "pending" filter, say, the row leaves the table. */
  lemma ApproveActionEffect(v: DriversView, id: string, now: int, store: Store)
    requires store.updateSucceeds
    ensures var r := UpdateKycStatus(v, id, true, None, false, now, store);
      forall i :: 0 <= i < |v.drivers| && v.drivers[i].id == id && SubmissionComplete(v.drivers[i].kycDocuments) ==>
        StatusOf(r.view.drivers[i]) == Verified
    ensures var r := UpdateKycStatus(v, id, true, None, false, now, store);
      forall w: User :: w.id != id ==> (w in Table(r.view) <==> w in Table(v))
    ensures var r := UpdateKycStatus(v, id, true, None, false, now, store);
      forall w :: w in Table(r.view) && w.id == id && SubmissionComplete(w.kycDocuments) ==>
        StatusOf(w) == Verified && (v.filters.kycStatus == "" || v.filters.kycStatus == Verified)
  {
    var p := KycUpdate(true, None, false, now);
    var f := (u: User) => MergeKyc(u, p, false);
    var r := UpdateKycStatus(v, id, true, None, false, now, store);
    assert r.view == UpdateView(v, id, f);
    forall i | 0 <= i < |v.drivers| && v.drivers[i].id == id && SubmissionComplete(v.drivers[i].kycDocuments)
      ensures StatusOf(r.view.drivers[i]) == Verified
    {
      ApproveShowsVerified(v.drivers[i], now);
    }
    OtherRowsUnchanged(v, id, f);
    forall w | w in Table(r.view) && w.id == id && SubmissionComplete(w.kycDocuments)
      ensures StatusOf(w) == Verified && (v.filters.kycStatus == "" || v.filters.kycStatus == Verified)
    {
      ShownIffMatches(r.view.drivers, v.filters, v.sort, w);
      var i := UpdatedMember(v.drivers, id, f, w);
      ApproveShowsVerified(v.drivers[i], now);
    }
  }

  /** A failed deletion of the documents stops the action before anything
      is written, so the two lists keep their old content. A deletion that
      succeeded followed by a failed write leaves the documents gone while
      the record still shows its old status; the page does not roll back. */
  lemma ResubmissionFailureModes(v: DriversView, id: string, reason: Option<string>, now: int)
    ensures UpdateKycStatus(v, id, false, reason, true, now, Store(false, true)) == Outcome(v, false, None)
    ensures UpdateKycStatus(v, id, false, reason, true, now, Store(true, false)) == Outcome(v, true, None)
  {
  }

  // ---------------------------------------------------------------------
  // Toggle buttons and the "absent means active" convention
  // ---------------------------------------------------------------------

  /** The value the vehicle button writes, as the page computes it:
      `!(driver.vehicleActive === true)`. */
  function VehicleToggleAsWritten(u: User): (b: bool)
    ensures b <==> u.vehicleActive != B(true)
    ensures VehicleActive(u) && !b ==> u.vehicleActive == B(true)
  {
    !(u.vehicleActive == B(true))
  }

  /** The button is labelled "Deactivate Vehicle" whenever the vehicle is
      shown active, yet on a record whose `vehicleActive` is missing or
      null the written value leaves it active: the click changes nothing
      visible. Exactly those records are affected. */
  lemma VehicleToggleAsWrittenMisfires(u: User, now: int)
    ensures VehicleActive(u.(vehicleActive := B(VehicleToggleAsWritten(u)))) == VehicleActive(u)
            <==> u.vehicleActive == Absent || u.vehicleActive == Null
  {
  }

  /** The corrected toggle: write the opposite of what the badge shows. */
  function VehicleToggle(u: User): (b: bool)
    ensures b <==> u.vehicleActive == B(false)
  {
    !VehicleActive(u)
  }

  /** The vehicle button of the corrected model: a successful click flips
      the shown state of every record with the driver's id. Under a set
      vehicle-status filter the clicked row therefore leaves the table,
      and the other drivers' rows are shown exactly as before. */
  lemma VehicleToggleFlips(v: DriversView, u: User, now: int, store: Store, i: nat)
    requires store.updateSucceeds
    requires i < |v.drivers| && v.drivers[i] == u
    ensures VehicleActive(UpdateVehicleStatus(v, u.id, VehicleToggle(u), now, store).view.drivers[i]) == !VehicleActive(u)
    ensures var r := UpdateVehicleStatus(v, u.id, VehicleToggle(u), now, store);
      forall w :: w in Table(r.view) && w.id == u.id ==> VehicleActive(w) == !VehicleActive(u)
    ensures var r := UpdateVehicleStatus(v, u.id, VehicleToggle(u), now, store);
      u in Table(v) && v.filters.vehicleStatus != "" ==> forall w :: w in Table(r.view) ==> w.id != u.id
    ensures var r := UpdateVehicleStatus(v, u.id, VehicleToggle(u), now, store);
      forall w: User :: w.id != u.id ==> (w in Table(r.view) <==> w in Table(v))
  {
    var f := (x: User) => x.(vehicleActive := B(VehicleToggle(u)), updatedAt := Some(now));
    var r := UpdateVehicleStatus(v, u.id, VehicleToggle(u), now, store);
    assert r.view == UpdateView(v, u.id, f);
    forall w | w in Table(r.view) && w.id == u.id
      ensures VehicleActive(w) == !VehicleActive(u)
    {
      ShownIffMatches(r.view.drivers, v.filters, v.sort, w);
      var k := UpdatedMember(v.drivers, u.id, f, w);
    }
    if u in Table(v) && v.filters.vehicleStatus != "" {
      ShownIffMatches(v.drivers, v.filters, v.sort, u);
      forall w | w in Table(r.view)
        ensures w.id != u.id
      {
        ShownIffMatches(r.view.drivers, v.filters, v.sort, w);
        var k := UpdatedMember(v.drivers, u.id, f, w);
      }
    }
    OtherRowsUnchanged(v, u.id, f);
  }

  /** The status badge, the toggle label and the "Active Drivers" card of
      the drivers page read `is_active` by truthiness. */
  predicate DriverShownActiveAsWritten(u: User): (b: bool)
    ensures b ==> DriverActive(u)
    ensures b <==> u.isActive.B? && u.isActive.value
  {
    u.isActive == B(true)
  }

  /** With the field missing or null, the status filter "active" keeps a
      driver whose badge says "Inactive"; on every other record the two
      agree. */
  lemma DriverBadgeAsWrittenDisagrees(u: User)
    ensures (StatusFilterMatches(u, "active") && !DriverShownActiveAsWritten(u))
            <==> u.isActive == Absent || u.isActive == Null
    ensures u.isActive.B? ==> (StatusFilterMatches(u, "active") <==> DriverShownActiveAsWritten(u))
  {
  }

  /** The corrected badge follows the same convention as the filters. */
  predicate DriverShownActive(u: User) {
    DriverActive(u)
  }

  /** The corrected driver toggle writes the opposite of the badge. */
  function DriverToggle(u: User): (b: bool)
    ensures b <==> u.isActive == B(false)
  {
    !DriverShownActive(u)
  }

  /** With the corrected badge, the two status filters split the drivers
      exactly by what the badge shows. */
  lemma StatusFilterFollowsBadge(u: User)
    ensures StatusFilterMatches(u, "active") <==> DriverShownActive(u)
    ensures StatusFilterMatches(u, "inactive") <==> !DriverShownActive(u)
  {
  }

  /** After a successful toggle, every shown row with the driver's id
      carries the opposite badge. */
  lemma ToggledDriverRowsFlip(v: DriversView, u: User, now: int, store: Store)
    requires store.updateSucceeds
    ensures forall w :: w in Table(SetDriverStatus(v, u.id, DriverToggle(u), now, store).view) && w.id == u.id ==>
      DriverShownActive(w) == !DriverShownActive(u)
  {
    var f := (x: User) => x.(isActive := B(DriverToggle(u)));
    var r := SetDriverStatus(v, u.id, DriverToggle(u), now, store);
    assert r.view == UpdateView(v, u.id, f);
    forall w | w in Table(r.view) && w.id == u.id
      ensures DriverShownActive(w) == !DriverShownActive(u)
    {
      ShownIffMatches(r.view.drivers, v.filters, v.sort, w);
      var k := UpdatedMember(v.drivers, u.id, f, w);
    }
  }

  /** Under a set status filter, a driver shown before a successful toggle
      is not shown after it. */
  lemma ToggledDriverLeavesTable(v: DriversView, u: User, now: int, store: Store)
    requires store.updateSucceeds
    ensures u in Table(v) && (v.filters.status == "active" || v.filters.status == "inactive") ==>
      forall w :: w in Table(SetDriverStatus(v, u.id, DriverToggle(u), now, store).view) ==> w.id != u.id
  {
    if u in Table(v) && (v.filters.status == "active" || v.filters.status == "inactive") {
      ToggledDriverLeaves(v, u, now, store);
    }
  }

  /** The same, for a driver known to pass the filters. */
  lemma ToggledDriverLeaves(v: DriversView, u: User, now: int, store: Store)
    requires store.updateSucceeds
    requires u in v.drivers && Matches(u, v.filters, DriverCodeMap(v.drivers))
    requires v.filters.status == "active" || v.filters.status == "inactive"
    ensures forall w :: w in Table(SetDriverStatus(v, u.id, DriverToggle(u), now, store).view) ==> w.id != u.id
  {
    var f := (x: User) => x.(isActive := B(DriverToggle(u)));
    var r := SetDriverStatus(v, u.id, DriverToggle(u), now, store);
    assert r.view == UpdateView(v, u.id, f);
    assert StatusFilterMatches(u, v.filters.status);
    forall w | w in Table(r.view)
      ensures w.id != u.id
    {
      ShownIffMatches(r.view.drivers, v.filters, v.sort, w);
      var k := UpdatedMember(v.drivers, u.id, f, w);
    }
  }

  /** In the corrected model the status filter keeps exactly the drivers
      whose badge says "Active", and a successful toggle flips the badge of
      every record with the driver's id. Under a set status filter the
      toggled row therefore leaves the table, and the other drivers' rows
      are shown exactly as before. */
  lemma DriverBadgeAgreesWithFilter(v: DriversView, u: User, now: int, store: Store, i: nat)
    requires store.updateSucceeds
    requires i < |v.drivers| && v.drivers[i] == u
    ensures StatusFilterMatches(u, "active") <==> DriverShownActive(u)
    ensures StatusFilterMatches(u, "inactive") <==> !DriverShownActive(u)
    ensures DriverShownActive(SetDriverStatus(v, u.id, DriverToggle(u), now, store).view.drivers[i]) == !DriverShownActive(u)
    ensures var r := SetDriverStatus(v, u.id, DriverToggle(u), now, store);
      forall w :: w in Table(r.view) && w.id == u.id ==> DriverShownActive(w) == !DriverShownActive(u)
    ensures var r := SetDriverStatus(v, u.id, DriverToggle(u), now, store);
      u in Table(v) && (v.filters.status == "active" || v.filters.status == "inactive") ==>
        forall w :: w in Table(r.view) ==> w.id != u.id
    ensures var r := SetDriverStatus(v, u.id, DriverToggle(u), now, store);
      forall w: User :: w.id != u.id ==> (w in Table(r.view) <==> w in Table(v))
  {
    var f := (x: User) => x.(isActive := B(DriverToggle(u)));
    var r := SetDriverStatus(v, u.id, DriverToggle(u), now, store);
    assert r.view == UpdateView(v, u.id, f);
    assert DriverShownActive(r.view.drivers[i]) == !DriverShownActive(u) by {
      assert r.view.drivers[i] == f(u);
    }
    StatusFilterFollowsBadge(u);
    ToggledDriverRowsFlip(v, u, now, store);
    if u in Table(v) && (v.filters.status == "active" || v.filters.status == "inactive") {
      ToggledDriverLeavesTable(v, u, now, store);
    }
    OtherRowsUnchanged(v, u.id, f);
  }
}

=== FILE: page_numbers.dfy ===
/** The `Pagination` component: the "Showing a-b of n" range, the window
    of page buttons with ellipses (`generatePageNumbers`), the guards of the
    previous, next and page-number handlers, and when anything is drawn. */
module PageNumbers {
  import opened Wrappers
  import opened Pager

  /** One entry of `generatePageNumbers`: a page number or one of the two
      ellipsis markers. */
  datatype PageEntry = Num(n: int) | EllipsisStart | EllipsisEnd

  function Max(a: int, b: int): int {
    if a >= b then a else b
  }

  // ---------------------------------------------------------------------
  // Item range
  // ---------------------------------------------------------------------

  /** `startItem` and `endItem` as the component computes them. */
  function ItemRange(currentPage: int, itemsPerPage: int, totalItems: nat): (r: (int, int))
    ensures r.1 <= totalItems
    ensures totalItems == 0 ==> r.0 == 0
    ensures currentPage >= 1 && itemsPerPage >= 1 && totalItems > 0 ==> r.0 >= 1
  {
    (if totalItems == 0 then 0 else (currentPage - 1) * itemsPerPage + 1,
     Min(currentPage * itemsPerPage, totalItems))
  }

  /** The component shows the same range as the hook's summary, so the two
      never disagree on screen. */
  lemma ItemRangeMatchesHook(p: Pager, n: nat)
    requires ValidSize(p)
    ensures ItemRange(p.page, p.ipp, n) == (PaginationInfo(p, n).startItem, PaginationInfo(p, n).endItem)
  {
  }

  // ---------------------------------------------------------------------
  // Page-number window
  // ---------------------------------------------------------------------

  /** `startPage` and `endPage`: up to `maxPageNumbers / 2` pages either
      side of the current one, widened at the first or the last page so
      that the window still holds `maxPageNumbers` pages when there are
      that many. The component is also drawn with a current page past the
      last one (for the render between a shrinking list and the hook's
      clamp); the window then ends at the last page and leaves the current
      page out. */
  function Window(cp: int, tp: int, m: nat): (w: (int, int))
    requires 1 <= cp && 1 <= tp
    ensures 1 <= w.0 && w.1 <= tp
    ensures cp <= tp ==> w.0 <= cp <= w.1
    ensures cp > tp ==> w.1 == tp
    ensures w.1 - w.0 + 1 <= 2 * (m / 2) + 1
    ensures w.1 - w.0 + 1 >= Min(tp, m)
  {
    var h := m / 2;
    var s0 := Max(1, cp - h);
    var e0 := Min(tp, cp + h);
    if e0 - s0 + 1 < m && s0 == 1 then (s0, Min(tp, s0 + m - 1))
    else if e0 - s0 + 1 < m && e0 == tp then (Max(1, e0 - m + 1), e0)
    else (s0, e0)
  }

  /** With an odd `maxPageNumbers` (5 on the drivers page) the window holds
      exactly `min(totalPages, maxPageNumbers)` pages. */
  lemma OddWindowLength(cp: int, tp: int, m: nat)
    requires 1 <= cp && 1 <= tp && m % 2 == 1
    ensures Window(cp, tp, m).1 - Window(cp, tp, m).0 + 1 == Min(tp, m)
  {
  }

  /** The pages `a..b` as entries. */
  function Run(a: int, b: int): (r: seq<PageEntry>)
    ensures |r| == if b >= a then b - a + 1 else 0
    ensures forall i :: 0 <= i < |r| ==> r[i] == Num(a + i)
  {
    seq(if b >= a then b - a + 1 else 0, i => Num(a + i))
  }

  /** Page 1 and, if pages are skipped after it, the leading ellipsis. */
  function Head(start: int): seq<PageEntry> {
    if start > 1 then [Num(1)] + (if start > 2 then [EllipsisStart] else []) else []
  }

  /** The trailing ellipsis, if pages are skipped, and the last page. */
  function Tail(end: int, tp: int): seq<PageEntry> {
    if end < tp then (if end < tp - 1 then [EllipsisEnd] else []) + [Num(tp)] else []
  }

  /** `generatePageNumbers()`. */
  function PageNumbers(cp: int, tp: int, m: nat): (r: seq<PageEntry>)
    requires 1 <= cp && 1 <= tp
    ensures |r| >= 1 && r[0] == Num(1)
    ensures cp <= tp || 1 <= m ==> r[|r| - 1] == Num(tp)
  {
    var w := Window(cp, tp, m);
    var run := Run(w.0, w.1);
    assert w.0 <= w.1 ==> run[0] == Num(w.0) && run[|run| - 1] == Num(w.1);
    Head(w.0) + run + Tail(w.1, tp)
  }

  /** The render with a stale page: 25 items at 10 per page leave 3
      pages while the page is still 4. The buttons list pages 1 to 3
      without the current page, and the summary reads "31-25 of 25". */
  lemma StalePageRender()
    ensures Window(4, 3, 5) == (1, 3)
    ensures PageNumbers(4, 3, 5) == [Num(1), Num(2), Num(3)]
    ensures ItemRange(4, 10, 25) == (31, 25)
  {
    assert Run(1, 3) == [Num(1), Num(2), Num(3)];
  }

  /** A position for each entry along the row of buttons: page `k` at
      `2k`, the leading ellipsis between pages 1 and 2, the trailing one
      between the last two pages. */
  function Position(e: PageEntry, tp: int): int {
    match e
    case Num(k) => 2 * k
    case EllipsisStart => 3
    case EllipsisEnd => 2 * tp - 1
  }

  predicate Increasing(r: seq<PageEntry>, tp: int) {
    forall i, j :: 0 <= i < j < |r| ==> Position(r[i], tp) < Position(r[j], tp)
  }

  predicate PositionsWithin(r: seq<PageEntry>, tp: int, lo: int, hi: int) {
    forall i :: 0 <= i < |r| ==> lo <= Position(r[i], tp) <= hi
  }

  lemma IncreasingConcat(a: seq<PageEntry>, b: seq<PageEntry>, tp: int, mid: int)
    requires Increasing(a, tp) && Increasing(b, tp)
    requires forall i :: 0 <= i < |a| ==> Position(a[i], tp) < mid
    requires forall i :: 0 <= i < |b| ==> mid <= Position(b[i], tp)
    ensures Increasing(a + b, tp)
  {
    forall i, j | 0 <= i < j < |a + b| ensures Position((a + b)[i], tp) < Position((a + b)[j], tp) {
      if j < |a| {
        assert (a + b)[i] == a[i] && (a + b)[j] == a[j];
      } else if i >= |a| {
        assert (a + b)[i] == b[i - |a|] && (a + b)[j] == b[j - |a|];
      } else {
        assert (a + b)[i] == a[i] && (a + b)[j] == b[j - |a|];
      }
    }
  }

  /** The entries run strictly from left to right: page numbers strictly
      increase, no entry appears twice (so the React keys are unique), and
      each ellipsis sits between the pages it stands for. */
  lemma PageNumbersIncreasing(cp: int, tp: int, m: nat)
    requires 1 <= cp && 1 <= tp
    ensures Increasing(PageNumbers(cp, tp, m), tp)
    ensures forall i, j :: 0 <= i < j < |PageNumbers(cp, tp, m)| ==>
      PageNumbers(cp, tp, m)[i] != PageNumbers(cp, tp, m)[j]
    ensures forall i, j ::
      (0 <= i < j < |PageNumbers(cp, tp, m)| && PageNumbers(cp, tp, m)[i].Num? && PageNumbers(cp, tp, m)[j].Num?) ==>
      PageNumbers(cp, tp, m)[i].n < PageNumbers(cp, tp, m)[j].n
  {
    var w := Window(cp, tp, m);
    var h := Head(w.0);
    var run := Run(w.0, w.1);
    var t := Tail(w.1, tp);
    assert Increasing(run, tp);
    IncreasingConcat(h, run, tp, 2 * w.0);
    var r := PageNumbers(cp, tp, m);
    assert r == h + run + t;
    if w.1 < tp {
      IncreasingConcat(h + run, t, tp, 2 * w.1 + 1);
    } else {
      assert r == h + run;
    }
    forall i, j | 0 <= i < j < |r| && r[i].Num? && r[j].Num? ensures r[i].n < r[j].n {
      assert Position(r[i], tp) < Position(r[j], tp);
    }
  }

  /** Which entries appear: page `k` is listed exactly when it is the
      first page, the last page or inside the window; each ellipsis appears
      exactly when it hides at least one page. Every page from 1 to
      `totalPages` is therefore either listed or behind an ellipsis; 1 and
      the last page are always listed, and the current page exactly when
      it is not past the last one. */
  lemma PageNumbersContents(cp: int, tp: int, m: nat, k: int)
    requires 1 <= cp && 1 <= tp && (cp <= tp || 1 <= m)
    ensures var w := Window(cp, tp, m);
      && (Num(k) in PageNumbers(cp, tp, m) <==> k == 1 || k == tp || w.0 <= k <= w.1)
      && (EllipsisStart in PageNumbers(cp, tp, m) <==> w.0 > 2)
      && (EllipsisEnd in PageNumbers(cp, tp, m) <==> w.1 < tp - 1)
    ensures Num(k) in PageNumbers(cp, tp, m) ==> 1 <= k <= tp
    ensures Num(1) in PageNumbers(cp, tp, m) && Num(tp) in PageNumbers(cp, tp, m)
    ensures Num(cp) in PageNumbers(cp, tp, m) <==> cp <= tp
    ensures var w := Window(cp, tp, m);
      1 <= k <= tp ==>
        || Num(k) in PageNumbers(cp, tp, m)
        || (1 < k < w.0 && EllipsisStart in PageNumbers(cp, tp, m))
        || (w.1 < k < tp && EllipsisEnd in PageNumbers(cp, tp, m))
  {
    var w := Window(cp, tp, m);
    var h := Head(w.0);
    var run := Run(w.0, w.1);
    var t := Tail(w.1, tp);
    var r := PageNumbers(cp, tp, m);
    assert r == h + run + t;
    assert forall x :: x in r <==> x in h || x in run || x in t;
    assert Num(k) in run <==> w.0 <= k <= w.1 by {
      if w.0 <= k <= w.1 {
        assert run[k - w.0] == Num(k);
      }
    }
    if cp <= tp {
      assert run[cp - w.0] == Num(cp);
    }
    if w.0 == 1 {
      assert run[0] == Num(1);
    }
    if w.1 == tp {
      assert run[tp - w.0] == Num(tp);
    }
  }

  // ---------------------------------------------------------------------
  // Handlers and visibility
  // ---------------------------------------------------------------------

  /** `handlePrevious`: the page requested from `onPageChange`, if any. */
  function HandlePrevious(cp: int, disabled: bool): (r: Option<int>)
    ensures r.None? <==> cp <= 1 || disabled
    ensures r.Some? ==> 1 <= r.value < cp
  {
    if cp > 1 && !disabled then Some(cp - 1) else None
  }

  /** `handleNext`. */
  function HandleNext(cp: int, tp: int, disabled: bool): (r: Option<int>)
    ensures r.None? <==> cp >= tp || disabled
    ensures r.Some? ==> cp < r.value <= tp
  {
    if cp < tp && !disabled then Some(cp + 1) else None
  }

  /** `handlePageClick`: only a page number other than the current one,
      on an enabled control, requests a change; ellipses do nothing. */
  function HandlePageClick(e: PageEntry, cp: int, disabled: bool): (r: Option<int>)
    ensures r.Some? <==> e.Num? && e.n != cp && !disabled
    ensures r.Some? ==> r.value == e.n
  {
    if e.Num? && e.n != cp && !disabled then Some(e.n) else None
  }

  /** Wired to the hook (`onPageChange` is `goToPage`), the previous and
      next buttons do what the hook's own previous and next operations do,
      and a click on a listed page number goes to exactly that page. */
  lemma ControlsAgreeWithHook(p: Pager, n: nat, m: nat, e: PageEntry)
    requires ValidSize(p) && InRange(p.page, TotalPages(n, p.ipp))
    ensures match HandlePrevious(p.page, false)
      case None => PreviousPage(p) == p
      case Some(t) => GoToPage(p, n, t) == PreviousPage(p)
    ensures match HandleNext(p.page, TotalPages(n, p.ipp), false)
      case None => NextPage(p, n) == p
      case Some(t) => GoToPage(p, n, t) == NextPage(p, n)
    ensures e in PageNumbers(p.page, TotalPages(n, p.ipp), m) ==>
      match HandlePageClick(e, p.page, false)
      case None => e == Num(p.page) || !e.Num?
      case Some(t) => GoToPage(p, n, t).page == t == e.n && t != p.page
  {
    if e in PageNumbers(p.page, TotalPages(n, p.ipp), m) && e.Num? {
      PageNumbersContents(p.page, TotalPages(n, p.ipp), m, e.n);
    }
  }

  /** The component draws nothing when there is at most one page and no
      page-size selector. */
  predicate RendersNothing(tp: int, showItemsPerPage: bool) {
    tp <= 1 && !showItemsPerPage
  }

  /** The previous, page-number and next controls are drawn only when
      there is more than one page. */
  predicate ControlsShown(tp: int) {
    tp > 1
  }

  /** Fed by the hook, the controls appear exactly when the list holds more
      items than one page, and the component disappears only for such a
      short list with the selector hidden. */
  lemma VisibilityByLength(n: nat, ipp: int, showItemsPerPage: bool)
    requires ipp >= 1
    ensures ControlsShown(TotalPages(n, ipp)) <==> n > ipp
    ensures RendersNothing(TotalPages(n, ipp), showItemsPerPage) <==> n <= ipp && !showItemsPerPage
  {
    var tp := TotalPages(n, ipp);
    if n > ipp {
      assert tp * ipp >= n > 1 * ipp;
      MulMonotone(tp, 1, ipp);
    } else {
      TotalPagesIsLeast(n, ipp, 1);
    }
  }
}

=== FILE: pager.dfy ===
/** `usePagination`: the page state of a paginated list (current page and
    page size), the derived page count and page contents, the navigation
    operations, the clamping and reset effects, and the summary shown under
    the table. React effects are modelled as the state transitions they
    cause once the batched updates of one commit have been applied. */
module Pager {
  import opened Seqs

  /** `currentPage` and `itemsPerPage`. The page is any integer the setter
      was given; the page size is at least 1 (see `ChangeItemsPerPage`). */
  datatype Pager = Pager(page: int, ipp: int)

  predicate ValidSize(p: Pager) {
    p.ipp >= 1
  }

  /** `Math.ceil(a / b)` for a positive divisor. Dafny's `/` on `int`
      rounds down when the divisor is positive. */
  function CeilDiv(a: int, b: int): (q: int)
    requires b >= 1
    ensures (q - 1) * b < a <= q * b
  {
    -((-a) / b)
  }

  /** `Math.max(1, Math.ceil(totalItems / itemsPerPage))`: enough pages to
      hold every item, and no page more unless the list is empty. */
  function TotalPages(n: nat, ipp: int): (r: int)
    requires ipp >= 1
    ensures r >= 1
    ensures n <= r * ipp
    ensures r == 1 || (r - 1) * ipp < n
  {
    var c := CeilDiv(n, ipp);
    if c < 1 then 1 else c
  }

  lemma MulMonotone(a: int, b: int, c: int)
    requires c >= 0
    ensures a <= b ==> a * c <= b * c
  {
    if a <= b {
      assert b * c - a * c == (b - a) * c;
    }
  }

  /** The smallest page count that holds all items is the one computed. */
  lemma TotalPagesIsLeast(n: nat, ipp: int, k: int)
    requires ipp >= 1 && k >= 1 && n <= k * ipp
    ensures TotalPages(n, ipp) <= k
  {
    var r := TotalPages(n, ipp);
    MulMonotone(k, r - 1, ipp);
  }

  predicate InRange(page: int, totalPages: int) {
    1 <= page <= totalPages
  }

  // ---------------------------------------------------------------------
  // Page contents
  // ---------------------------------------------------------------------

  /** How `Array.prototype.slice` reads an index: negative counts from the
      end, and the result is clamped to `[0, len]`. */
  function JsIndex(i: int, len: nat): (r: nat)
    ensures r <= len
    ensures 0 <= i <= len ==> r == i
  {
    if i < 0 then (if len + i < 0 then 0 else len + i)
    else if i > len then len
    else i
  }

  /** `s.slice(start, end)`. */
  function JsSlice<T>(s: seq<T>, start: int, end: int): (r: seq<T>)
    ensures |r| <= |s|
    ensures 0 <= start <= end ==>
      r == s[Min(start, |s|)..Min(end, |s|)]
  {
    var a := JsIndex(start, |s|);
    var b := JsIndex(end, |s|);
    if a < b then s[a..b] else []
  }

  function Min(a: int, b: int): int {
    if a <= b then a else b
  }

  /** `paginatedData`. */
  function PageItems<T>(data: seq<T>, p: Pager): (r: seq<T>)
    requires ValidSize(p)
    ensures p.page >= 1 ==> |r| <= p.ipp
    ensures p.page >= 1 && (p.page - 1) * p.ipp >= |data| ==> r == []
  {
    var start := (p.page - 1) * p.ipp;
    if p.page >= 1 then
      MulMonotone(0, p.page - 1, p.ipp);
      JsSlice(data, start, start + p.ipp)
    else
      JsSlice(data, start, start + p.ipp)
  }

  /** On a page in range the items shown are the `ipp` items starting at
      `(page - 1) * ipp`, fewer only on the last page, and never none
      unless the list is empty. */
  lemma PageItemsInRange<T>(data: seq<T>, p: Pager)
    requires ValidSize(p) && InRange(p.page, TotalPages(|data|, p.ipp))
    ensures 0 <= (p.page - 1) * p.ipp <= |data|
    ensures PageItems(data, p) == data[(p.page - 1) * p.ipp..Min(p.page * p.ipp, |data|)]
    ensures |PageItems(data, p)| <= p.ipp
    ensures |data| > 0 ==> |PageItems(data, p)| > 0
    ensures p.page < TotalPages(|data|, p.ipp) ==> |PageItems(data, p)| == p.ipp
  {
    var n := |data|;
    var start := (p.page - 1) * p.ipp;
    var stop := p.page * p.ipp;
    StartBeforeEnd(n, p.ipp, TotalPages(n, p.ipp), p.page);
    assert stop == start + p.ipp;
    PageItemsAt(data, p.ipp, p.page);
  }

  /** The first item of a page in range exists, unless the list is
      empty, and every page before the last is full. */
  lemma StartBeforeEnd(n: nat, ipp: int, tp: int, page: int)
    requires ipp >= 1 && tp == TotalPages(n, ipp) && InRange(page, tp)
    ensures 0 <= (page - 1) * ipp <= n
    ensures n > 0 ==> (page - 1) * ipp < n
    ensures page < tp ==> page * ipp <= n
  {
    MulMonotone(0, page - 1, ipp);
    MulMonotone(page - 1, tp - 1, ipp);
    MulMonotone(page, tp - 1, ipp);
  }

  /** The items of page `k` are those from `(k - 1) * ipp` up to `k * ipp`,
      both cut off at the end of the list. */
  lemma PageItemsAt<T>(data: seq<T>, ipp: int, k: int)
    requires ipp >= 1 && k >= 1
    ensures 0 <= (k - 1) * ipp
    ensures PageItems(data, Pager(k, ipp)) == data[Min((k - 1) * ipp, |data|)..Min(k * ipp, |data|)]
  {
    var start := (k - 1) * ipp;
    MulMonotone(0, k - 1, ipp);
    assert start + ipp == k * ipp;
  }

  /** The first `k` pages, one after the other. */
  function FirstPages<T>(data: seq<T>, ipp: int, k: nat): seq<T>
    requires ipp >= 1
  {
    if k == 0 then [] else FirstPages(data, ipp, k - 1) + PageItems(data, Pager(k, ipp))
  }

  lemma {:induction false} FirstPagesPrefix<T>(data: seq<T>, ipp: int, k: nat)
    requires ipp >= 1
    ensures FirstPages(data, ipp, k) == data[..Min(k * ipp, |data|)]
  {
    if k > 0 {
      FirstPagesPrefix(data, ipp, k - 1);
      PageItemsAt(data, ipp, k);
      var a := Min((k - 1) * ipp, |data|);
      var b := Min(k * ipp, |data|);
      assert a <= b;
      assert data[..a] + data[a..b] == data[..b];
    }
  }

  /** Paging loses and repeats nothing: the pages in order make up the
      whole list. */
  lemma PagesPartitionData<T>(data: seq<T>, ipp: int)
    requires ipp >= 1
    ensures FirstPages(data, ipp, TotalPages(|data|, ipp)) == data
  {
    var tp := TotalPages(|data|, ipp);
    FirstPagesPrefix(data, ipp, tp);
    assert Min(tp * ipp, |data|) == |data|;
  }

  // ---------------------------------------------------------------------
  // Navigation
  // ---------------------------------------------------------------------

  /** `goToPage(page)`: the requested page, clamped into `[1, totalPages]`. */
  function GoToPage(p: Pager, n: nat, target: int): (r: Pager)
    requires ValidSize(p)
    ensures r.ipp == p.ipp
    ensures InRange(r.page, TotalPages(n, p.ipp))
    ensures InRange(target, TotalPages(n, p.ipp)) ==> r.page == target
    ensures target < 1 ==> r.page == 1
    ensures target > TotalPages(n, p.ipp) ==> r.page == TotalPages(n, p.ipp)
  {
    var tp := TotalPages(n, p.ipp);
    var m := if target < tp then target else tp;
    p.(page := if m < 1 then 1 else m)
  }

  /** `goToNextPage`: one page on, unless already on the last page. */
  function NextPage(p: Pager, n: nat): (r: Pager)
    requires ValidSize(p)
    ensures r.ipp == p.ipp
    ensures p.page < TotalPages(n, p.ipp) ==> r.page == p.page + 1
    ensures p.page >= TotalPages(n, p.ipp) ==> r == p
  {
    if p.page < TotalPages(n, p.ipp) then p.(page := p.page + 1) else p
  }

  /** `goToPreviousPage`: one page back, unless already on the first. */
  function PreviousPage(p: Pager): (r: Pager)
    ensures r.ipp == p.ipp
    ensures p.page > 1 ==> r.page == p.page - 1
    ensures p.page <= 1 ==> r == p
  {
    if p.page > 1 then p.(page := p.page - 1) else p
  }

  /** `goToFirstPage` and `goToLastPage`. */
  function FirstPage(p: Pager): Pager {
    p.(page := 1)
  }

  function LastPage(p: Pager, n: nat): Pager
    requires ValidSize(p)
  {
    p.(page := TotalPages(n, p.ipp))
  }

  /** Next and previous undo each other away from the ends, and both keep
      a page in range in range. */
  lemma NavigationInverse(p: Pager, n: nat)
    requires ValidSize(p) && InRange(p.page, TotalPages(n, p.ipp))
    ensures InRange(NextPage(p, n).page, TotalPages(n, p.ipp))
    ensures InRange(PreviousPage(p).page, TotalPages(n, p.ipp))
    ensures p.page < TotalPages(n, p.ipp) ==> PreviousPage(NextPage(p, n)) == p
    ensures p.page > 1 ==> NextPage(PreviousPage(p), n) == p
  {
  }

  /** Going to the first or last page is going to page 1 or to page
      `totalPages` by number. */
  lemma FirstLastAreGoTo(p: Pager, n: nat)
    requires ValidSize(p)
    ensures FirstPage(p) == GoToPage(p, n, 1)
    ensures LastPage(p, n) == GoToPage(p, n, TotalPages(n, p.ipp))
  {
  }

  /** `changeItemsPerPage(size)`: the size is raised to at least 1 and the
      page becomes the one holding the item that was first on screen. */
  function ChangeItemsPerPage(p: Pager, size: int): (r: Pager)
    requires ValidSize(p)
    ensures ValidSize(r)
    ensures r.ipp == if size < 1 then 1 else size
    ensures r.page >= 1
    ensures p.page >= 1 ==>
      (r.page - 1) * r.ipp < (p.page - 1) * p.ipp + 1 <= r.page * r.ipp
  {
    var v := if size < 1 then 1 else size;
    var firstItem := (p.page - 1) * p.ipp + 1;
    var q := CeilDiv(firstItem, v);
    Pager(if q < 1 then 1 else q, v)
  }

  /** A page in range stays in range after a size change, so the clamping
      effect has nothing to correct, and the item that was first on screen
      lies inside the new page's window `[(page - 1) * ipp, page * ipp)`
      of the list. */
  lemma ChangeItemsPerPageKeepsFirstItem(n: nat, p: Pager, size: int)
    requires ValidSize(p) && InRange(p.page, TotalPages(n, p.ipp)) && n > 0
    ensures InRange(ChangeItemsPerPage(p, size).page, TotalPages(n, ChangeItemsPerPage(p, size).ipp))
    ensures var r := ChangeItemsPerPage(p, size);
      (r.page - 1) * r.ipp <= (p.page - 1) * p.ipp < Min(r.page * r.ipp, n)
  {
    var r := ChangeItemsPerPage(p, size);
    var first := (p.page - 1) * p.ipp + 1;
    var lo := (r.page - 1) * r.ipp;
    var hi := r.page * r.ipp;
    var tp := TotalPages(n, r.ipp);
    StartBeforeEnd(n, p.ipp, TotalPages(n, p.ipp), p.page);
    assert lo < first <= hi;
    assert first <= n;
    assert n <= tp * r.ipp;
    MulMonotone(tp, r.page - 1, r.ipp);
    assert r.page <= tp;
  }

  // ---------------------------------------------------------------------
  // Effects
  // ---------------------------------------------------------------------

  /** The clamping effect: a page past the end moves to the last page, a
      page before the first moves to page 1. */
  function Clamp(p: Pager, n: nat): (r: Pager)
    requires ValidSize(p)
    ensures r.ipp == p.ipp
    ensures InRange(r.page, TotalPages(n, p.ipp))
    ensures InRange(p.page, TotalPages(n, p.ipp)) ==> r == p
  {
    var tp := TotalPages(n, p.ipp);
    if p.page > tp then p.(page := tp)
    else if p.page < 1 then p.(page := 1)
    else p
  }

  /** Clamping and going to a page are idempotent, and clamping is going
      to the current page. */
  lemma ClampIdempotent(p: Pager, n: nat, target: int)
    requires ValidSize(p)
    ensures Clamp(Clamp(p, n), n) == Clamp(p, n)
    ensures Clamp(p, n) == GoToPage(p, n, p.page)
    ensures GoToPage(GoToPage(p, n, target), n, target) == GoToPage(p, n, target)
  {
  }

  /** The page after the list changes from `oldLength` to `newLength`
      items, as the hook is written. The reset effect only runs when the
      length changes. In that commit it asks for page 1, and the clamping
      effect, still seeing the old page, asks for the last page if the old
      page is now past the end; React applies both requests in order, so
      the later one wins. */
  function SettleAsWritten(p: Pager, oldLength: nat, newLength: nat, resetOnChange: bool): (r: Pager)
    requires ValidSize(p)
    ensures r.ipp == p.ipp
    ensures oldLength == newLength ==> r == p
  {
    if oldLength == newLength then p
    else
      var tp := TotalPages(newLength, p.ipp);
      var afterReset := if resetOnChange then p.(page := 1) else p;
      var requested :=
        if p.page > tp then afterReset.(page := tp)
        else if p.page < 1 then afterReset.(page := 1)
        else afterReset;
      Clamp(requested, newLength)
  }

  /** With resetting enabled, a length change that leaves the old page
      past the end lands on the last page instead of page 1: page 4 of
      50 items at 10 per page, filtered down to 25 items, shows page 3. */
  lemma SettleAsWrittenMissesReset()
    ensures SettleAsWritten(Pager(4, 10), 50, 25, true).page == 3
  {
  }

  /** The page after the list changes from `oldLength` to `newLength`
      items, as `resetPageOnDataChange` describes it: a length change goes
      back to page 1 when resetting is enabled, otherwise the old page is
      clamped into range; a change that keeps the length leaves the page
      alone. */
  function Settle(p: Pager, oldLength: nat, newLength: nat, resetOnChange: bool): (r: Pager)
    requires ValidSize(p)
    ensures r.ipp == p.ipp
    ensures oldLength == newLength ==> r == p
    ensures oldLength != newLength ==> InRange(r.page, TotalPages(newLength, p.ipp))
    ensures oldLength != newLength && resetOnChange ==> r.page == 1
    ensures oldLength != newLength && !resetOnChange ==> r == Clamp(p, newLength)
  {
    if oldLength == newLength then p
    else if resetOnChange then p.(page := 1)
    else Clamp(p, newLength)
  }

  /** The written hook and the intended one differ exactly when the length
      changes, resetting is enabled and the old page lies past the new
      end. */
  lemma SettleDiffersOnlyPastEnd(p: Pager, oldLength: nat, newLength: nat, resetOnChange: bool)
    requires ValidSize(p)
    ensures SettleAsWritten(p, oldLength, newLength, resetOnChange) != Settle(p, oldLength, newLength, resetOnChange) <==>
      oldLength != newLength && resetOnChange && p.page > TotalPages(newLength, p.ipp) > 1
  {
  }

  // ---------------------------------------------------------------------
  // Summary line
  // ---------------------------------------------------------------------

  /** `getPaginationInfo()`. */
  datatype Info = Info(
    startItem: int,
    endItem: int,
    totalItems: nat,
    currentPage: int,
    totalPages: int,
    itemsPerPage: int,
    hasNextPage: bool,
    hasPreviousPage: bool,
    isFirstPage: bool,
    isLastPage: bool)

  /** A page past the last one starts after the last item. */
  lemma StalePageStartsPastEnd(n: nat, ipp: int, page: int)
    requires ipp >= 1
    ensures page > TotalPages(n, ipp) ==> (page - 1) * ipp >= n
  {
    MulMonotone(TotalPages(n, ipp), page - 1, ipp);
  }

  function PaginationInfo(p: Pager, n: nat): (r: Info)
    requires ValidSize(p)
    ensures r.totalItems == n && r.currentPage == p.page && r.itemsPerPage == p.ipp
    ensures r.totalPages == TotalPages(n, p.ipp)
    ensures r.endItem <= n
    ensures r.isLastPage ==> !r.hasNextPage
    ensures p.page >= 1 ==> (r.isFirstPage <==> !r.hasPreviousPage)
    ensures n > 0 && p.page > r.totalPages ==> r.startItem > r.endItem
  {
    StalePageStartsPastEnd(n, p.ipp, p.page);
    var tp := TotalPages(n, p.ipp);
    Info(
      if n == 0 then 0 else (p.page - 1) * p.ipp + 1,
      Min(p.page * p.ipp, n),
      n, p.page, tp, p.ipp,
      p.page < tp, p.page > 1, p.page == 1, p.page == tp)
  }

  /** "Showing startItem to endItem of totalItems" describes the page
      shown: on a page in range of a non-empty list the items shown are
      exactly the items at 1-based positions `startItem` to `endItem`. */
  lemma InfoDescribesPage<T>(data: seq<T>, p: Pager)
    requires ValidSize(p) && InRange(p.page, TotalPages(|data|, p.ipp)) && |data| > 0
    ensures 1 <= PaginationInfo(p, |data|).startItem <= PaginationInfo(p, |data|).endItem <= |data|
    ensures PageItems(data, p) ==
      data[PaginationInfo(p, |data|).startItem - 1..PaginationInfo(p, |data|).endItem]
  {
    PageItemsInRange(data, p);
    InfoBounds(p, |data|);
  }

  /** The summary's bounds on a page in range of a non-empty list. */
  lemma InfoBounds(p: Pager, n: nat)
    requires ValidSize(p) && InRange(p.page, TotalPages(n, p.ipp)) && n > 0
    ensures PaginationInfo(p, n).startItem == (p.page - 1) * p.ipp + 1
    ensures PaginationInfo(p, n).endItem == Min(p.page * p.ipp, n)
    ensures 1 <= PaginationInfo(p, n).startItem <= PaginationInfo(p, n).endItem <= n
  {
    var start := (p.page - 1) * p.ipp;
    StartBeforeEnd(n, p.ipp, TotalPages(n, p.ipp), p.page);
    assert p.page * p.ipp == start + p.ipp;
  }

  /** An empty list reads "0 to 0" on a page that is both the first and
      the last; otherwise there is a next page exactly when this is not
      the last one, and a previous page exactly when this is not the
      first. */
  lemma InfoFlags(p: Pager, n: nat)
    requires ValidSize(p) && InRange(p.page, TotalPages(n, p.ipp))
    ensures n == 0 ==> PaginationInfo(p, n).startItem == 0 && PaginationInfo(p, n).endItem == 0
    ensures n == 0 ==> PaginationInfo(p, n).isFirstPage && PaginationInfo(p, n).isLastPage
    ensures PaginationInfo(p, n).hasNextPage <==> !PaginationInfo(p, n).isLastPage
    ensures PaginationInfo(p, n).hasPreviousPage <==> !PaginationInfo(p, n).isFirstPage
  {
    if n == 0 {
      assert TotalPages(n, p.ipp) == 1;
    }
  }

  // ---------------------------------------------------------------------
  // Filtered pagination
  // ---------------------------------------------------------------------

  /** `usePaginationWithFilter`: `isFiltered` compares the lengths before
      and after filtering. */
  function IsFiltered<T(==,!new)>(original: seq<T>, keep: T -> bool): bool {
    |Filter(original, keep)| != |original|
  }

  /** The list counts as filtered exactly when some item was dropped. */
  lemma IsFilteredIffDropped<T(!new)>(original: seq<T>, keep: T -> bool)
    ensures IsFiltered(original, keep) <==> exists i :: 0 <= i < |original| && !keep(original[i])
  {
    FilterDropsNothing(original, keep);
  }
}

=== FILE: seqs.dfy ===
/** Order-preserving filtering and counting over sequences: the model of
    `Array.prototype.filter(p)` and of `array.filter(p).length`, the two
    operations every list view and tally of the dashboard is built from. */
module Seqs {

  /** `a` can be obtained from `b` by deleting elements, keeping the order
      of the rest. */
  predicate IsSubsequence<T(==)>(a: seq<T>, b: seq<T>)
    decreases |b|
  {
    || |a| == 0
    || (&& |b| > 0
        && (|| (a[0] == b[0] && IsSubsequence(a[1..], b[1..]))
            || IsSubsequence(a, b[1..])))
  }

  lemma {:induction false} IsSubsequenceReflexive<T>(s: seq<T>)
    ensures IsSubsequence(s, s)
  {
    if |s| > 0 {
      IsSubsequenceReflexive(s[1..]);
    }
  }

  lemma {:induction false} IsSubsequenceTransitive<T>(a: seq<T>, b: seq<T>, c: seq<T>)
    requires IsSubsequence(a, b) && IsSubsequence(b, c)
    ensures IsSubsequence(a, c)
    decreases |c|
  {
    if |a| > 0 {
      if IsSubsequence(b, c[1..]) {
        IsSubsequenceTransitive(a, b, c[1..]);
      } else if a[0] == b[0] && IsSubsequence(a[1..], b[1..]) {
        IsSubsequenceTransitive(a[1..], b[1..], c[1..]);
      } else {
        IsSubsequenceTransitive(a, b[1..], c[1..]);
      }
    }
  }

  /** `s.filter(p)`. The result keeps exactly the elements satisfying `p`,
      each as often as it occurs in `s`, in their original order. */
  function Filter<T(==,!new)>(s: seq<T>, p: T -> bool): (r: seq<T>)
    ensures |r| <= |s|
    ensures forall x :: x in r ==> p(x)
    ensures forall x :: multiset(r)[x] == if p(x) then multiset(s)[x] else 0
    ensures IsSubsequence(r, s)
  {
    if |s| == 0 then []
    else
      var rest := Filter(s[1..], p);
      assert s == [s[0]] + s[1..];
      if p(s[0]) then
        assert ([s[0]] + rest)[1..] == rest;
        [s[0]] + rest
      else
        rest
  }

  /** Every element of the input satisfying `p` is in the filtered result. */
  lemma FilterKeeps<T(!new)>(s: seq<T>, p: T -> bool, x: T)
    requires x in s && p(x)
    ensures x in Filter(s, p)
  {
    assert multiset(s)[x] > 0;
    assert multiset(Filter(s, p))[x] > 0;
  }

  /** Membership in the filtered result, both ways. */
  lemma FilterMembership<T(!new)>(s: seq<T>, p: T -> bool, x: T)
    ensures x in Filter(s, p) <==> x in s && p(x)
  {
    assert x in s <==> multiset(s)[x] > 0;
    assert x in Filter(s, p) <==> multiset(Filter(s, p))[x] > 0;
  }

  /** `s.filter(p).length`. */
  function Count<T>(s: seq<T>, p: T -> bool): nat
  {
    if |s| == 0 then 0 else (if p(s[0]) then 1 else 0) + Count(s[1..], p)
  }

  /** Counting is filtering and taking the length. */
  lemma {:induction false} CountIsFilterLength<T(!new)>(s: seq<T>, p: T -> bool)
    ensures Count(s, p) == |Filter(s, p)|
  {
    if |s| > 0 {
      CountIsFilterLength(s[1..], p);
    }
  }

  lemma {:induction false} CountAppend<T>(s: seq<T>, t: seq<T>, p: T -> bool)
    ensures Count(s + t, p) == Count(s, p) + Count(t, p)
  {
    if |s| > 0 {
      assert (s + t)[1..] == s[1..] + t;
      CountAppend(s[1..], t, p);
    } else {
      assert s + t == t;
    }
  }

  /** The filter drops nothing exactly when every element satisfies `p`;
      then it returns its input unchanged. */
  lemma {:induction false} FilterDropsNothing<T(!new)>(s: seq<T>, p: T -> bool)
    ensures |Filter(s, p)| == |s| <==> forall i :: 0 <= i < |s| ==> p(s[i])
    ensures (forall i :: 0 <= i < |s| ==> p(s[i])) ==> Filter(s, p) == s
  {
    if |s| > 0 {
      FilterDropsNothing(s[1..], p);
      assert forall i :: 1 <= i < |s| ==> s[i] == s[1..][i - 1];
      if !p(s[0]) {
        assert |Filter(s, p)| == |Filter(s[1..], p)| <= |s[1..]|;
      }
    }
  }

  /** Filtering twice is filtering by the conjunction. */
  lemma {:induction false} FilterFilter<T(!new)>(s: seq<T>, p: T -> bool, q: T -> bool)
    ensures Filter(Filter(s, p), q) == Filter(s, x => p(x) && q(x))
  {
    if |s| > 0 {
      FilterFilter(s[1..], p, q);
      if p(s[0]) {
        assert ([s[0]] + Filter(s[1..], p))[1..] == Filter(s[1..], p);
      }
    }
  }

  /** Filtering by two predicates that agree everywhere gives the same
      result. */
  lemma {:induction false} FilterExt<T(!new)>(s: seq<T>, p: T -> bool, q: T -> bool)
    requires forall x :: p(x) == q(x)
    ensures Filter(s, p) == Filter(s, q)
  {
    if |s| > 0 {
      FilterExt(s[1..], p, q);
    }
  }

  /** Any sequence holding exactly the elements of `s` that satisfy `p`,
      each as often as in `s`, is as long as `p`'s count in `s`. */
  lemma SameElementsAsFilter<T(!new)>(r: seq<T>, s: seq<T>, p: T -> bool)
    requires forall x :: multiset(r)[x] == if p(x) then multiset(s)[x] else 0
    ensures |r| == Count(s, p)
  {
    CountIsFilterLength(s, p);
    assert multiset(r) == multiset(Filter(s, p));
    assert |multiset(r)| == |multiset(Filter(s, p))|;
  }

  /** Elements matching `p` and elements not matching it together make up
      the whole sequence. */
  lemma {:induction false} CountComplement<T>(s: seq<T>, p: T -> bool)
    ensures Count(s, p) + Count(s, x => !p(x)) == |s|
  {
    if |s| > 0 {
      CountComplement(s[1..], p);
    }
  }

  /** Two predicates no element satisfies together count at most the whole
      sequence between them. */
  lemma {:induction false} CountDisjoint<T>(s: seq<T>, p: T -> bool, q: T -> bool)
    requires forall i :: 0 <= i < |s| ==> !(p(s[i]) && q(s[i]))
    ensures Count(s, p) + Count(s, q) <= |s|
  {
    if |s| > 0 {
      assert forall i :: 0 <= i < |s[1..]| ==> s[1..][i] == s[i + 1];
      CountDisjoint(s[1..], p, q);
    }
  }
}

=== FILE: sorting.dfy ===
/** `Array.prototype.sort` with a comparator that orders by a string key
    using JavaScript's `<`, ascending or descending, and answers 0 for
    equal keys. Since ES2019 the sort is stable; the model inserts each
    element after every earlier element it does not strictly precede,
    which keeps equal keys in their original order. */
module Sorting {
  import opened Text

  /** Key `a` sorts strictly before key `b` in the requested direction:
      the comparator returns a negative number. */
  predicate Precedes(a: string, b: string, desc: bool) {
    if desc then LexLess(b, a) else LexLess(a, b)
  }

  lemma PrecedesIrreflexive(a: string, desc: bool)
    ensures !Precedes(a, a, desc)
  {
    LexLessIrreflexive(a);
  }

  /** If `b` precedes `c` and `a` does not precede `c`, then `a` does not
      precede `b` either. */
  lemma NotPrecedesEarlier(a: string, b: string, c: string, desc: bool)
    requires Precedes(b, c, desc) && !Precedes(a, c, desc)
    ensures !Precedes(a, b, desc)
  {
    if desc {
      LexLessTotal(c, a);
      if c == a {
        LexLessAsymmetric(a, b);
      } else {
        LexLessTransitive(a, c, b);
        LexLessAsymmetric(a, b);
      }
    } else {
      LexLessTotal(a, c);
      if a == c {
        LexLessAsymmetric(b, a);
      } else {
        LexLessTransitive(b, c, a);
        LexLessAsymmetric(b, a);
      }
    }
  }

  /** No element is strictly preceded by a later one. */
  predicate SortedBy<T>(s: seq<T>, key: T -> string, desc: bool) {
    forall i, j :: 0 <= i < j < |s| ==> !Precedes(key(s[j]), key(s[i]), desc)
  }

  /** Inserts `x` before the first element whose key it strictly precedes. */
  function Insert<T(==)>(x: T, s: seq<T>, key: T -> string, desc: bool): (r: seq<T>)
    requires SortedBy(s, key, desc)
    ensures SortedBy(r, key, desc)
    ensures multiset(r) == multiset(s) + multiset{x}
  {
    if |s| == 0 then [x]
    else if Precedes(key(x), key(s[0]), desc) then
      forall j | 0 <= j < |s| ensures !Precedes(key(s[j]), key(x), desc) {
        if j == 0 {
          PrecedesIrreflexive(key(s[0]), desc);
        }
        NotPrecedesEarlier(key(s[j]), key(x), key(s[0]), desc);
      }
      assert s == [s[0]] + s[1..];
      [x] + s
    else
      var rest := Insert(x, s[1..], key, desc);
      forall j | 0 <= j < |rest| ensures !Precedes(key(rest[j]), key(s[0]), desc) {
        assert rest[j] in multiset(rest);
        if rest[j] != x {
          assert rest[j] in multiset(s[1..]);
          var k :| 0 <= k < |s[1..]| && s[1..][k] == rest[j];
          assert s[k + 1] == rest[j];
        }
      }
      assert s == [s[0]] + s[1..];
      [s[0]] + rest
  }

  /** The stable sort by `key`: the result is ordered and is a
      permutation of the input. */
  function SortBy<T(==)>(s: seq<T>, key: T -> string, desc: bool): (r: seq<T>)
    ensures SortedBy(r, key, desc)
    ensures multiset(r) == multiset(s)
    ensures |r| == |s|
  {
    if |s| == 0 then []
    else
      var init := s[..|s| - 1];
      assert s == init + [s[|s| - 1]];
      var r := Insert(s[|s| - 1], SortBy(init, key, desc), key, desc);
      assert |multiset(r)| == |multiset(s)|;
      r
  }

  /** An element no earlier element follows is appended at the end. */
  lemma {:induction false} InsertAtEnd<T>(x: T, s: seq<T>, key: T -> string, desc: bool)
    requires SortedBy(s, key, desc)
    requires forall i :: 0 <= i < |s| ==> !Precedes(key(x), key(s[i]), desc)
    ensures Insert(x, s, key, desc) == s + [x]
  {
    if |s| > 0 {
      InsertAtEnd(x, s[1..], key, desc);
      assert s == [s[0]] + s[1..];
    }
  }

  /** Sorting an ordered sequence leaves it unchanged; in particular
      sorting twice is sorting once. */
  lemma {:induction false} SortSorted<T>(s: seq<T>, key: T -> string, desc: bool)
    requires SortedBy(s, key, desc)
    ensures SortBy(s, key, desc) == s
  {
    if |s| > 0 {
      var init := s[..|s| - 1];
      SortSorted(init, key, desc);
      InsertAtEnd(s[|s| - 1], init, key, desc);
      assert init + [s[|s| - 1]] == s;
    }
  }

  lemma SortIdempotent<T>(s: seq<T>, key: T -> string, desc: bool)
    ensures SortBy(SortBy(s, key, desc), key, desc) == SortBy(s, key, desc)
  {
    SortSorted(SortBy(s, key, desc), key, desc);
  }
}

=== FILE: text.dfy ===
/** String helpers with the meaning JavaScript gives them in the dashboard:
    ASCII-only case mapping, `String.prototype.includes`, the code-unit order
    of `<` on strings, the truthiness of an optional string, and the decimal
    rendering used by `String(n).padStart(width, '0')`. */
module Text {
  import opened Wrappers

  // ---------------------------------------------------------------------
  // Truthiness of optional strings
  // ---------------------------------------------------------------------

  /** `!!s` for a field that is a string or missing: the empty string is
      falsy exactly like a missing field. */
  predicate Present(s: Option<string>) {
    s.Some? && s.value != ""
  }

  /** `s || fallback` for an optional string. */
  function OrElse(s: Option<string>, fallback: string): (r: string)
    ensures Present(s) ==> r == s.value
    ensures !Present(s) ==> r == fallback
  {
    if Present(s) then s.value else fallback
  }

  // ---------------------------------------------------------------------
  // ASCII case mapping
  // ---------------------------------------------------------------------

  predicate IsUpperAscii(c: char) { 'A' <= c <= 'Z' }

  predicate IsLowerAscii(c: char) { 'a' <= c <= 'z' }

  function LowerChar(c: char): (r: char)
    ensures !IsUpperAscii(r)
    ensures IsUpperAscii(c) ==> r as int == c as int + 32
    ensures !IsUpperAscii(c) ==> r == c
  {
    if IsUpperAscii(c) then (c as int + 32) as char else c
  }

  function UpperChar(c: char): (r: char)
    ensures !IsLowerAscii(r)
    ensures IsLowerAscii(c) ==> r as int == c as int - 32
    ensures !IsLowerAscii(c) ==> r == c
  {
    if IsLowerAscii(c) then (c as int - 32) as char else c
  }

  /** Upper-casing then lower-casing a character gives the lower-case form
      of the original: the two mappings only ever move between the two
      ASCII letter ranges. */
  lemma LowerOfUpper(c: char)
    ensures LowerChar(UpperChar(c)) == LowerChar(c)
  {
  }

  /** `s.toLowerCase()`, restricted to ASCII letters. */
  function ToLower(s: string): (r: string)
    ensures |r| == |s|
    ensures forall i :: 0 <= i < |s| ==> r[i] == LowerChar(s[i])
  {
    seq(|s|, i requires 0 <= i < |s| => LowerChar(s[i]))
  }

  lemma ToLowerIdempotent(s: string)
    ensures ToLower(ToLower(s)) == ToLower(s)
  {
  }

  // ---------------------------------------------------------------------
  // Substring search: `s.includes(t)`
  // ---------------------------------------------------------------------

  /** `t` occurs in `s` starting at index `i`. */
  predicate OccursAt(s: string, t: string, i: int) {
    0 <= i && i + |t| <= |s| && s[i..i + |t|] == t
  }

  predicate IsPrefix(p: string, s: string) {
    |p| <= |s| && s[..|p|] == p
  }

  /** `s.includes(t)`: a left-to-right scan for the first index at which
      `t` occurs. The empty string occurs in every string. */
  function Includes(s: string, t: string): (b: bool)
    ensures b <==> exists i :: OccursAt(s, t, i)
    decreases |s|
  {
    if IsPrefix(t, s) then
      assert OccursAt(s, t, 0);
      true
    else if |s| == 0 then
      assert forall i :: !OccursAt(s, t, i);
      false
    else
      var rest := Includes(s[1..], t);
      if rest then
        var j :| OccursAt(s[1..], t, j);
        assert s[j + 1..j + 1 + |t|] == s[1..][j..j + |t|];
        assert OccursAt(s, t, j + 1);
        true
      else
        assert forall i :: !OccursAt(s, t, i) by {
          forall i | 0 < i && i + |t| <= |s|
            ensures !OccursAt(s, t, i)
          {
            assert !OccursAt(s[1..], t, i - 1);
            assert s[1..][i - 1..i - 1 + |t|] == s[i..i + |t|];
          }
        }
        false
  }

  /** `a.toLowerCase().includes(b.toLowerCase())`. */
  predicate IncludesIgnoringCase(a: string, b: string) {
    Includes(ToLower(a), ToLower(b))
  }

  /** `field?.toLowerCase().includes(q.toLowerCase())` for an optional
      field: a missing field never matches. */
  predicate FieldMatches(field: Option<string>, q: string) {
    field.Some? && IncludesIgnoringCase(field.value, q)
  }

  // ---------------------------------------------------------------------
  // String order: JavaScript's `<` on strings
  // ---------------------------------------------------------------------

  /** `a < b` on strings: the first differing character decides, and a
      proper prefix comes first. */
  predicate LexLess(a: string, b: string)
    decreases |a|
  {
    if |a| == 0 then |b| > 0
    else if |b| == 0 then false
    else if a[0] != b[0] then a[0] < b[0]
    else LexLess(a[1..], b[1..])
  }

  lemma {:induction false} LexLessIrreflexive(a: string)
    ensures !LexLess(a, a)
    decreases |a|
  {
    if |a| > 0 {
      LexLessIrreflexive(a[1..]);
    }
  }

  lemma {:induction false} LexLessTransitive(a: string, b: string, c: string)
    requires LexLess(a, b) && LexLess(b, c)
    ensures LexLess(a, c)
    decreases |a|
  {
    if |a| > 0 && |b| > 0 && |c| > 0 && a[0] == b[0] && b[0] == c[0] {
      LexLessTransitive(a[1..], b[1..], c[1..]);
    }
  }

  lemma {:induction false} LexLessAsymmetric(a: string, b: string)
    ensures !(LexLess(a, b) && LexLess(b, a))
    decreases |a|
  {
    if |a| > 0 && |b| > 0 && a[0] == b[0] {
      LexLessAsymmetric(a[1..], b[1..]);
    }
  }

  /** Any two different strings are ordered one way or the other. */
  lemma {:induction false} LexLessTotal(a: string, b: string)
    ensures a == b || LexLess(a, b) || LexLess(b, a)
    decreases |a|
  {
    if |a| > 0 && |b| > 0 && a[0] == b[0] {
      LexLessTotal(a[1..], b[1..]);
      if a[1..] == b[1..] {
        assert a == [a[0]] + a[1..] && b == [b[0]] + b[1..];
      }
    }
  }

  // ---------------------------------------------------------------------
  // Decimal rendering: `String(n)` and `padStart`
  // ---------------------------------------------------------------------

  function DigitChar(d: nat): (c: char)
    requires d < 10
  {
    ('0' as int + d) as char
  }

  predicate IsDigit(c: char) { '0' <= c <= '9' }

  predicate AllDigits(s: string) {
    forall i :: 0 <= i < |s| ==> IsDigit(s[i])
  }

  /** The value of a decimal digit; other characters count as zero. */
  function DigitValue(c: char): nat {
    if IsDigit(c) then c as int - '0' as int else 0
  }

  /** `String(n)` for a natural number: its decimal digits, most
      significant first, with no leading zero. */
  function Decimal(n: nat): (s: string)
    ensures |s| >= 1
    ensures forall i :: 0 <= i < |s| ==> IsDigit(s[i])
    ensures n >= 10 ==> s[0] != '0'
  {
    if n < 10 then [DigitChar(n)] else Decimal(n / 10) + [DigitChar(n % 10)]
  }

  /** A number below 1000 has at most three decimal digits. */
  lemma DecimalBelowThousand(n: nat)
    ensures n < 1000 ==> |Decimal(n)| <= 3
  {
    if 10 <= n < 1000 {
      assert n / 10 < 100;
      if n / 10 >= 10 {
        assert n / 10 / 10 < 10;
        assert |Decimal(n / 10 / 10)| == 1;
        assert |Decimal(n / 10)| == 2;
      }
    }
  }

  /** `s.padStart(width, c)`: left-pad with `c` up to `width` characters;
      a string already that long is returned as is. */
  function PadStart(s: string, width: nat, c: char): (r: string)
    ensures |r| == if |s| >= width then |s| else width
    ensures r[|r| - |s|..] == s
    ensures forall i :: 0 <= i < |r| - |s| ==> r[i] == c
  {
    if |s| >= width then s else seq(width - |s|, _ => c) + s
  }

  /** Reads a string of decimal digits back as a number; leading zeros are
      harmless. The inverse of `Decimal` and of zero-padding. */
  function ParseDecimal(s: string): nat {
    if |s| == 0 then 0 else ParseDecimal(s[..|s| - 1]) * 10 + DigitValue(s[|s| - 1])
  }

  lemma {:induction false} ParseDecimalOfDecimal(n: nat)
    ensures ParseDecimal(Decimal(n)) == n
  {
    if n >= 10 {
      var s := Decimal(n);
      assert s[..|s| - 1] == Decimal(n / 10);
      ParseDecimalOfDecimal(n / 10);
    }
  }

  lemma {:induction false} ParseDecimalLeadingZero(s: string)
    ensures ParseDecimal(['0'] + s) == ParseDecimal(s)
    decreases |s|
  {
    if |s| > 0 {
      var z := ['0'] + s;
      assert z[..|z| - 1] == ['0'] + s[..|s| - 1];
      ParseDecimalLeadingZero(s[..|s| - 1]);
    }
  }

  lemma {:induction false} ParseDecimalLeadingZeros(k: nat, s: string)
    ensures ParseDecimal(seq(k, _ => '0') + s) == ParseDecimal(s)
  {
    if k > 0 {
      var zeros := seq(k - 1, _ => '0');
      var rest := zeros + s;
      assert seq(k, _ => '0') == ['0'] + zeros;
      assert seq(k, _ => '0') + s == ['0'] + rest;
      ParseDecimalLeadingZeros(k - 1, s);
      ParseDecimalLeadingZero(rest);
    } else {
      assert seq(k, _ => '0') + s == s;
    }
  }

  /** Zero-padding a decimal rendering loses nothing: parsing it back
      gives the number. Hence distinct numbers have distinct padded
      renderings. */
  lemma PaddedDecimalRoundTrip(n: nat, width: nat)
    ensures AllDigits(PadStart(Decimal(n), width, '0'))
    ensures ParseDecimal(PadStart(Decimal(n), width, '0')) == n
  {
    var d := Decimal(n);
    ParseDecimalOfDecimal(n);
    if |d| < width {
      ParseDecimalLeadingZeros(width - |d|, d);
    }
  }
}

=== FILE: users.dfy ===
/** The document shapes of the `users` collection that the dashboard reads:
    one record type serves drivers (role `driver`, with their `kyc`
    sub-collection and first `vehicles` entry folded in) and every other
    user. Fields the dashboard never inspects are not modelled. */
module Users {
  import opened Wrappers

  /** A field that is meant to hold a boolean: missing from the document,
      stored as `null`, or a genuine boolean. Only `B(_)` passes
      `typeof x === 'boolean'`; only `B(true)` is truthy. */
  datatype Tri = Absent | Null | B(value: bool)

  /** One entry of the `kyc` sub-collection, keyed by its document id. Its
      `url` is the value the page ends up with: the stored document is
      spread after the fallback chain, so a stored `url` key wins even
      when it is empty or null; only without that key does the chain over
      `photoUrl`, `fileUrl` and `documentUrl` decide. `None` stands for a
      missing or null value. */
  datatype KycDoc = KycDoc(url: Option<string>)

  /** The first entry of the `vehicles` sub-collection. */
  datatype Vehicle = Vehicle(brand: Option<string>, model: Option<string>, number: Option<string>)

  /** Timestamps are the clock readings of the writes, as plain integers;
      `None` is a missing field or a stored `null`. */
  datatype User = User(
    id: string,
    username: Option<string>,
    name: Option<string>,
    displayName: Option<string>,
    email: Option<string>,
    role: Option<string>,
    kycApproved: Tri,
    kycStatus: Option<string>,
    kycDocuments: map<string, KycDoc>,
    kycRejectionReason: Option<string>,
    kycVerifiedAt: Option<int>,
    kycRejectedAt: Option<int>,
    updatedAt: Option<int>,
    vehicle: Option<Vehicle>,
    vehicleActive: Tri,
    isActive: Tri)

  /** `Object.keys(user.kycDocuments || {}).length`. */
  function DocumentCount(u: User): nat {
    |u.kycDocuments|
  }
}

=== FILE: wrappers.dfy ===
/** Optional values: the model's stand-in for JavaScript's `undefined`/`null`
    on a field that may be missing from a document. */
module Wrappers {

  datatype Option<+T> = None | Some(value: T) {

    /** Returns the value held in Some, or the given default. */
    function GetOr(default: T): T {
      match this
      case Some(v) => v
      case None => default
    }
  }
}
